=== FILE: README.md ===
# Terminal Archives — a Dafny model

Terminal Archives is a small web application for sharing exam papers. An
administrator drops PDF files on an upload page, fills in one card of
metadata per file and uploads them all. The server stores each file's
metadata in a SQLite table. Visitors search the table from a page styled
as a terminal.

This project models the logic of three parts of it and proves properties
of that logic:

- **The upload page** (`static/upload.js`), in module `UploadBatch`:
  - the registry of dropped files, keyed by `name-size`, which ignores
    non-PDF files and repeats;
  - the required-field check of a card;
  - the "Upload All" pass, which posts eligible cards one at a time and
    moves each card's status according to the request's outcome.
- **The server** (`app.py`), in modules `SearchApi`, `Sql`, `Papers` and
  `UploadEndpoint`:
  - `GET /api/papers`: query normalisation, splitting, term translation
    through `TRANSLATION_MAP`, and the AND-of-ORs `LIKE` condition. The
    SQL semantics are modelled directly: `LIKE` with its wildcards,
    ASCII case folding, three-valued logic over NULL columns, and
    `ORDER BY exam_year DESC, subject`.
  - `POST /upload`: presence checks, field defaults, the required-field
    check, and the row that is inserted.
- **The search page** (`static/script.js`), in modules `Terminal`,
  `Modal` and `UriCodec`:
  - the lines `performSearch` and `start` append to the terminal;
  - the `encodeURIComponent` of the query, and the server's decoding of it;
  - the search modal as a state machine over key and click events.

Module `EndToEnd` connects the upload page to the upload endpoint. Module
`Text` holds the string functions that several modules share: ASCII
lower-casing, Python's and JavaScript's whitespace classes, `strip`/`trim`,
Python's `split()`, substring search, decimal rendering and lexicographic
order. `Wrappers` holds `Option`.

Everything that is I/O becomes an input:

- a search's fetch outcome;
- the startup connection outcome;
- what the browser reports about the device;
- the outcome of each upload request, given as a sequence consumed in order;
- the name a file is stored under;
- the id the database assigns;
- whether the INSERT succeeds.

## Model

| member | source | states |
|---|---|---|
| Text.Strip | app.py:239 | `strip()`/`trim()` leaves no whitespace at either end and is empty exactly when the input is all whitespace |
| Text.StripSlice | app.py:239 | the stripped string is the input minus whitespace-only margins |
| Text.SplitStrip | app.py:250 | splitting ignores leading and trailing whitespace, so `split()` of the stripped query equals `split()` of the raw one |
| Text.SplitJoinWords | app.py:250 | `split()` recovers the words of any single-space join of non-empty, whitespace-free words |
| Text.SplitConcat | app.py:250 | splitting a query at whitespace splits it into the words of each side |
| Text.SplitLower | app.py:239-250 | lower-casing before splitting gives the lower-cased words of the raw query |
| Text.NatToString | static/upload.js:72 | the decimal rendering of a size is non-empty digits without leading zero and denotes the size |
| Text.NatToStringInjective | static/upload.js:72 | different sizes render differently |
| Text.Contains | app.py:268-269 | substring search is true exactly when the pattern occurs at some position |
| Text.StrLeTotal | app.py:273 | the BINARY collation order on text is total |
| Text.StrLeTransitive | app.py:273 | the BINARY collation order on text is transitive |
| Papers.PrecedesTransitive | app.py:273 | `exam_year DESC, subject` is a transitive order on rows |
| Papers.OrderBy | app.py:246 | the result is ordered by year descending, then subject ascending, and is a permutation of the rows |
| Sql.AnyOf | app.py:270 | an SQL `OR` chain is TRUE iff some operand is TRUE and FALSE iff all are FALSE |
| Sql.AllOf | app.py:272 | an SQL `AND` chain is TRUE iff all operands are TRUE and FALSE iff some operand is FALSE |
| Sql.LikePercentAll | app.py:269 | the pattern `%` matches every string |
| Sql.LikeLeadingPercent | app.py:269 | a leading `%` matches any prefix of the subject |
| Sql.LikeLiteralPrefix | app.py:269 | a wildcard-free pattern followed by `%` matches exactly the strings it starts, ignoring ASCII case |
| Sql.LikeContains | app.py:268-269 | `LOWER(col) LIKE '%t%'` holds iff the lower-cased `t` occurs in the lower-cased column, for wildcard-free `t` |
| Sql.WhereIff | app.py:264-272 | a row passes the WHERE clause iff every term's disjunction has a TRUE clause |
| Sql.WhereAppend | app.py:272 | joining two conditions with AND keeps exactly the rows both keep |
| Sql.WhereDuplicate | app.py:272 | repeating a condition changes nothing |
| Sql.Select | app.py:256-274 | SELECT keeps exactly the rows whose WHERE is TRUE, each as often as it occurs in the table |
| Sql.SelectSameCondition | app.py:256-274 | two conditions that agree on every row select the same sequence |
| SearchApi.KeysLowerInitial | app.py:45-62 | every key of `TRANSLATION_MAP` starts with a lower-case letter or a digit |
| SearchApi.TranslationValuesFixed | app.py:45-62 | every value of `TRANSLATION_MAP` is either not a key or maps to itself |
| SearchApi.TranslateIdempotent | app.py:253 | translating a term twice equals translating it once |
| SearchApi.Normalize | app.py:239 | the normalised query is no longer than the raw one, has no whitespace at either end, and is empty iff the query is blank |
| SearchApi.NormalizeIdempotent | app.py:239 | normalising twice equals normalising once |
| SearchApi.RawTermsAreWords | app.py:239-250 | the raw terms are the lower-cased whitespace-separated words of the query |
| SearchApi.TermsOfQuery | app.py:250-253 | there is one processed term per word of the query, in order, each the translation of the lower-cased word |
| SearchApi.TermsEmpty | app.py:244 | there are no terms exactly when the normalised query is empty |
| SearchApi.TermsOfJoinedWords | app.py:250-253 | the terms of words joined by spaces are the words' translations, count and order preserved |
| SearchApi.TermsConcat | app.py:250-253 | the terms of two queries joined by whitespace are the terms of each, in order |
| SearchApi.TermClausesTrue | app.py:266-270 | a term's OR over the ten columns is TRUE iff the term occurs in some non-NULL search column, ignoring ASCII case |
| SearchApi.WhereBuildCondition | app.py:261-272 | a row satisfies the built condition iff every term occurs in one of its ten search columns |
| SearchApi.BuildConditionAppend | app.py:265-272 | the condition of concatenated term lists is the AND of their conditions |
| SearchApi.GetPapers | app.py:239-274 | the result is sorted; for a blank query it holds every row, otherwise each row as often as in the table if the condition holds, else not at all |
| SearchApi.GetPapersMatches | app.py:261-272 | a row is returned iff it is in the table and every processed term occurs in one of its search columns |
| SearchApi.GetPapersNarrows | app.py:264-272 | adding terms to a query never adds rows to the result |
| SearchApi.GetPapersRepeat | app.py:264-272 | repeating the query's terms leaves the result unchanged, with rows tied on year and subject in the order `Papers.OrderBy` fixes |
| UploadEndpoint.FormGetFirst | app.py:177-188 | `form.get(key, default)` is the first value sent under `key`, or the default when none was sent |
| UploadEndpoint.FormGetAt | app.py:177-188 | the value sent first under a key is the one read |
| UploadEndpoint.UploadFile | app.py:168-219 | the row is stored iff the answer is 200; 200 iff a named file part is present, all seven required values are non-empty and the INSERT succeeds; 400 iff a presence or required check fails; "Missing file part" iff there is no file part; "A required field is empty" iff the file is named but a required value is empty; 500 "Database error" iff every check passes and the INSERT fails |
| UploadEndpoint.FileChecksFirst | app.py:168-173 | a missing file part gives "Missing file part", and an empty file name gives "Invalid file", before any field is looked at |
| UploadEndpoint.RequiredFieldsRead | app.py:177-181 | `class`, `subject`, `semester`, `exam_year` and `exam_type` each read as the value sent first under the key, or '' when none was sent |
| UploadEndpoint.OtherFieldsRead | app.py:182-188 | `paper_code`, `exam_number`, `university`, `time` and `max_marks` read as the value sent first or 'N/A'; `medium` as the value sent first or ''; `admin_name` as the value sent first or 'Unknown' |
| UploadEndpoint.StoredColumnsFromForm | app.py:176-211 | each of the twelve columns of a stored row holds the value sent first for its field, or the field's default when it was not sent; the id and file name are the ones assigned; a stored row means the six required fields other than `admin_name` were sent |
| UploadEndpoint.AdminNameOmittedAccepted | app.py:188-194 | omitting `admin_name` passes the required check, and the uploader becomes 'Unknown' |
| UploadEndpoint.AdminNameEmptyRefused | app.py:188-194 | sending `admin_name` empty is refused as a required field being empty |
| UploadBatch.FileKeyInjective | static/upload.js:72 | two files have the same `name-size` key iff they have the same name and size |
| UploadBatch.HandleFile | static/upload.js:70-90 | one file is added as a new, not-uploaded entry after all others iff it is a PDF whose key is new; otherwise the registry is unchanged and one alert is raised; keys stay unique |
| UploadBatch.HandleFiles | static/upload.js:69-91 | a drop keeps keys unique and the old registry as a prefix; each file adds an entry or raises an alert |
| UploadBatch.NotPdfIgnored | static/upload.js:75-78 | a file that is not `application/pdf` leaves the registry unchanged |
| UploadBatch.DuplicateIgnored | static/upload.js:81-84 | a file whose key is already registered leaves the registry unchanged |
| UploadBatch.SameFileTwice | static/upload.js:72-89 | dropping the same PDF twice in one drop yields a single entry |
| UploadBatch.HandleFilesConcat | static/upload.js:69-91 | dropping `a + b` is dropping `a` and then `b`, with the alerts of `a` before those of `b`, so files are handled in drop order |
| UploadBatch.HandleFilesLast | static/upload.js:69-91 | the last file of a drop is handled after all the others: its card, if it gets one, is appended after theirs, and its alert comes last |
| UploadBatch.HandleFilesKeys | static/upload.js:69-91 | after a drop, a key is registered iff it was before or some dropped PDF has it |
| UploadBatch.RequiredValuesComplete | static/upload.js:129-139 | a card is complete iff each of its seven required values is non-empty |
| UploadBatch.ValidateForm | static/upload.js:129-152 | the result is true iff the card is complete; if true only the error mark is removed, otherwise the status becomes Missing Info and the mark is set |
| UploadBatch.UploadAll | static/upload.js:158-215 | the pass visits cards in order and posts only eligible ones, each with its own outcome; when the outcomes run out the card in flight stays Uploading and later cards are untouched; the bodies sent are the eligible cards' payloads, in order |
| UploadBatch.EligiblePayloadsCount | static/upload.js:159-163 | one body is posted per eligible card |
| UploadBatch.EligiblePayloadsFrom | static/upload.js:159-163 | every posted body is the payload of an eligible card |
| UploadBatch.CountEligibleZero | static/upload.js:161 | no card is eligible iff the eligible count is zero |
| UploadBatch.PassKeepsCards | static/upload.js:171-215 | a pass changes no key, file or form; uploaded cards stay as they were, and a card becomes uploaded only through an Ok outcome; keys stay unique |
| UploadBatch.PassPostsOnlyEligible | static/upload.js:159-163 | every body a pass posts belongs to a card that was not uploaded and was complete, so no card is uploaded twice |
| UploadBatch.PassRequestCount | static/upload.js:158-165 | a stalled pass posted one body more than it has outcomes; a finished one posted one body per eligible card, at most one per outcome |
| UploadBatch.PassAllOk | static/upload.js:199-203 | after a finished pass in which every request succeeded, no card is eligible any more |
| UploadBatch.PassIdle | static/upload.js:158-165 | a pass over cards none of which is eligible posts nothing and visits every card |
| UploadBatch.SecondPassAfterAllOk | static/upload.js:158-165 | clicking Upload All again after a pass in which every request succeeded posts nothing |
| EndToEnd.CardFieldsRead | static/upload.js:180-187 | the server reads each of a card's twelve fields back under its own name, so no default applies |
| EndToEnd.RequiredChecksAgree | app.py:191-194 | the server's required check accepts a card's body iff the page's `validateForm` accepts the card |
| EndToEnd.CardRequestHandled | app.py:176-211 | a card's request is refused as incomplete iff the card is incomplete; it succeeds iff the card is complete and the INSERT succeeds; the stored row holds the card's own values |
| EndToEnd.PassRequestsAccepted | static/upload.js:158-187 | every body an Upload All pass sends for a named PDF passes the server's checks |
| UriCodec.Utf8Char | static/script.js:115 | a character's UTF-8 form has one to four bytes, one exactly for ASCII, continuation bytes after the first |
| UriCodec.EncodeUriComponent | static/script.js:115 | the encoding is at least as long as the query, consists only of unreserved characters and `%`, and leaves an all-unreserved query as it is |
| UriCodec.DecodeEncode | static/script.js:115 | percent-decoding and UTF-8-decoding the encoded query gives back the query |
| UriCodec.EncodeInjective | static/script.js:115 | different queries give different encodings |
| Terminal.PerformSearch | static/script.js:102-132 | the shortcut fires iff the trimmed, lower-cased query is "upload", and then only the redirect line is written and no request is made; otherwise the lines are the command echo, the outcome line(s) and the search-again hint; n results give "Found n" and one line per result, in order |
| Terminal.UploadCommandForms | static/script.js:104 | the shortcut fires exactly for "upload" in any letter case with only whitespace around it |
| Terminal.SearchRequestCarriesQuery | static/script.js:115 | the request path is `/api/papers?q=` followed by a value the server decodes to the raw query |
| Terminal.ResultLines | static/script.js:120-123 | one result line per paper, in response order |
| Terminal.SearchReportsOnce | static/script.js:118-131 | a search writes exactly one outcome line and exactly as many result lines as the response holds |
| Terminal.CoresText | static/script.js:69 | the core count shows as N/A exactly when it is missing or zero |
| Terminal.MemoryText | static/script.js:72-73 | the memory line shows N/A exactly when no memory figure is reported, and otherwise the figure followed by " GB (browser approx.)" |
| Terminal.DeviceLines | static/script.js:65-87 | the header, cores and memory lines always come first; then the quota line with the estimate's figures, or the "API not supported" line when there is no storage API, and the security note; nothing after the memory line when the estimate rejects |
| Terminal.Start | static/script.js:138-164 | the welcome line, the connection line for the outcome, the device-info command, the whole device listing from line 3 on, and then the two ready lines; a rejected storage estimate ends the sequence after the memory line |
| Terminal.StartConnectsOnce | static/script.js:143-155 | startup writes exactly one connection line, whatever the connection does |
| Terminal.ConnectionTextInjective | static/script.js:146-154 | the connection line's text and class tell which outcome occurred, including the paper count |
| Modal.Next | static/script.js:171-220 | Ctrl/Cmd+K shows the modal and empties its input; Escape, Enter in the modal's input and an overlay click hide it; any other event leaves visibility alone; Enter in an input searches that input's text, and Enter in the mobile input also empties it |
| Modal.RunVisible | static/script.js:171-220 | after any event sequence the modal is shown iff the last opening shortcut came after every closing event, or it was shown before and nothing closed it |
| Modal.RunSearchCount | static/script.js:192-210 | a sequence of events starts one search per Enter pressed in either input, and no other |

## Left out

- Rendering: DOM construction, CSS classes other than the `comment` class and the card error mark, colours, scrolling and the arrow-key card scrolling are not modelled. Line markup is kept as strings and never parsed as HTML.
- Timing: `sleep`, `setTimeout`, the one-second delay before the login redirect, and the transient progress bars are not modelled. The redirect is a flag.
- Network and database effects: `fetch` and the SQLite connection are not modelled; a fetch's outcome and whether the INSERT succeeds are inputs. The stored file name, built from `secure_filename` and the `os.times()` prefix, is an input too. Deleting the file after a failed INSERT is not modelled.
- Saving the uploaded file (app.py:200) is not modelled. It runs outside the `try`, so a failure there would escape as Flask's generic 500 instead of "Database error"; the model assumes the save succeeds.
- `url_for` (app.py:283) is not modelled; a paper's URL is an input of the result line. `original_name` (app.py:285) is never read by the page.
- Login, password hashing, sessions and the CSRF header are not modelled. They depend on framework and library state.
- database.py and create_admin.py are not part of this model. Only the table's NULL-able columns are reflected, in `Papers.Paper`.
- Text.Lower: ASCII case folding only. SQLite's `LOWER` and `LIKE` fold ASCII only, so the SQL side is exact. For the "upload" shortcut, JavaScript's full `toLowerCase` maps no non-ASCII character into "upload". The Kelvin sign becomes `k`, which does not occur in "upload". Python's `lower()` folds non-ASCII letters too, so on the search side the model differs from the source for queries with non-ASCII upper-case letters: "Éco" is searched as "éco" by the source and as "Éco" by the model, and the two can select different rows in either direction.
- SearchApi.GetPapers: the SELECT (app.py:274) is assumed to succeed. In the source it runs outside any `try`, so a failing SELECT escapes as Flask's generic 500 and the connection is not closed. That happens with a locked database, or with a query of very many words: each word adds a group of ten `LIKE` clauses and ten parameters, so enough words exceed SQLite's expression-depth or host-parameter limit. The model returns rows for every query.
- SearchApi.GetPapersMatches: requires terms without `%` or `_`. `Sql.Like` models the wildcards, but the substring reading holds only for wildcard-free terms.
- UploadBatch.UploadAll: concurrency is not modelled. A second click while a pass is in flight, or files dropped while a pass runs, would interleave with the pass. The model runs one pass at a time over a fixed registry.
- UploadBatch.UploadAll: a request whose outcome never arrives is modelled as the end of the outcome sequence. The pass stops there with that card showing Uploading, as it would while waiting without a timeout.
- UriCodec.DecodeComponent: malformed UTF-8 gives `None`. The server replaces such bytes instead, but the page never sends them.
- UriCodec.EncodeUriComponent: lone UTF-16 surrogates, which make `encodeURIComponent` throw, are not modelled. A Dafny `char` is a Unicode scalar value.
- Terminal.DeviceLines: the memory figure and the storage figures are floating-point renderings (`toFixed`). They are inputs given as strings.
- Terminal.PerformSearch: a response that is valid JSON but not an array is not modelled. The server always answers with an array.
- Terminal.Start: the startup fetch reads `papers.length` (static/script.js:147-148) in the same way, so the same restriction applies: a response that is valid JSON but not an array is not modelled.
- Terminal.PerformSearch: concurrency is not modelled. `performSearch` is not awaited by the key listeners, and `start` is not awaited either, with the listeners already active during startup. The lines of two quick searches, or of a search made during startup, can therefore interleave. The model gives each call's lines as one block.
- Terminal.Start: when the storage estimate rejects, the rest of `start` is abandoned. The model ends the line sequence there and does not model the unhandled rejection.
- Modal.Next: focus and `blur()` are not modelled. Key events carry the input they are typed in.

=== FILE: end_to_end.dfy ===
/**
 * The upload page talking to `POST /upload`: the body a card's request
 * carries, read back by the handler. The browser sends the PDF under `file`
 * and every field of the card, empty ones included, so the handler's
 * defaults never apply to a request from this page.
 */
module EndToEnd {
  import opened UploadBatch
  import opened UploadEndpoint

  /** The multipart request the browser builds from a body: the PDF under `file`, then the fields. */
  function ToRequest(pl: Payload): Request {
    Request(map["file" := FilePart(pl.file.name)], pl.fields)
  }

  /** The `data` dictionary a card's fields ought to produce: each column from its own input. */
  function CardData(f: Form): UploadData {
    UploadData(f.className, f.subject, f.semester, f.examYear, f.examType, f.paperCode,
      f.examNumber, f.medium, f.university, f.time, f.maxMarks, f.adminName)
  }

  /** The handler reads every field of a card back under its own name. */
  lemma CardFieldsRead(f: Form)
    ensures CollectData(FormFields(f)) == CardData(f)
  {
    CardFieldsReadFirst(f);
    CardFieldsReadMiddle(f);
    CardFieldsReadLast(f);
  }

  lemma CardFieldsReadFirst(f: Form)
    ensures var form := FormFields(f);
      && FormGet(form, "admin_name", UnknownUploader) == f.adminName
      && FormGet(form, "class", "") == f.className
      && FormGet(form, "subject", "") == f.subject
      && FormGet(form, "semester", "") == f.semester
  {
    var form := FormFields(f);
    FormGetAt(form, 0, "admin_name", UnknownUploader);
    FormGetAt(form, 1, "class", "");
    FormGetAt(form, 2, "subject", "");
    FormGetAt(form, 3, "semester", "");
  }

  lemma CardFieldsReadMiddle(f: Form)
    ensures var form := FormFields(f);
      && FormGet(form, "exam_year", "") == f.examYear
      && FormGet(form, "exam_type", "") == f.examType
      && FormGet(form, "exam_number", NotApplicable) == f.examNumber
      && FormGet(form, "paper_code", NotApplicable) == f.paperCode
  {
    var form := FormFields(f);
    FormGetAt(form, 4, "exam_year", "");
    FormGetAt(form, 5, "exam_type", "");
    FormGetAt(form, 6, "exam_number", NotApplicable);
    FormGetAt(form, 7, "paper_code", NotApplicable);
  }

  lemma CardFieldsReadLast(f: Form)
    ensures var form := FormFields(f);
      && FormGet(form, "medium", "") == f.medium
      && FormGet(form, "university", NotApplicable) == f.university
      && FormGet(form, "time", NotApplicable) == f.time
      && FormGet(form, "max_marks", NotApplicable) == f.maxMarks
  {
    var form := FormFields(f);
    FormGetAt(form, 8, "medium", "");
    FormGetAt(form, 9, "university", NotApplicable);
    FormGetAt(form, 10, "time", NotApplicable);
    FormGetAt(form, 11, "max_marks", NotApplicable);
  }

  /** The handler's required check and the page's `validateForm` agree on every card. */
  lemma RequiredChecksAgree(f: Form)
    ensures AllRequiredPresent(CollectData(FormFields(f))) <==> Complete(f)
  {
    CardFieldsRead(f);
    var r := UploadEndpoint.RequiredValues(CardData(f));
    assert r[0] == f.className && r[1] == f.subject && r[2] == f.semester && r[3] == f.examYear;
    assert r[4] == f.examType && r[5] == f.medium && r[6] == f.adminName;
  }

  /**
   * A card's request, once its PDF has a name, is refused as having an empty
   * required field exactly when the card is incomplete; a complete card is
   * stored with every column taken from the card, optional ones as sent
   * (an empty value, never 'N/A').
   */
  lemma CardRequestHandled(e: Entry, storedName: string, id: nat, insertOk: bool)
    requires e.file.name != []
    ensures var r := UploadFile(ToRequest(PayloadOf(e)), storedName, id, insertOk);
      && (r.response == RequiredFieldEmpty <==> !Complete(e.form))
      && (r.response == UploadEndpoint.Success <==> Complete(e.form) && insertOk)
      && (r.stored.Some? ==> r.stored.value == StoredRow(CardData(e.form), id, storedName))
  {
    CardFieldsRead(e.form);
    RequiredChecksAgree(e.form);
  }

  /**
   * Every request an "Upload All" pass sends for a named PDF gets past the
   * handler's checks: it is stored whenever the INSERT succeeds.
   */
  lemma PassRequestsAccepted(es: Registry, outcomes: seq<Outcome>, p: Pass, storedName: string, id: nat)
    requires IsPass(es, outcomes, p)
    ensures forall r :: r in p.requests && r.file.name != [] ==>
      UploadFile(ToRequest(r), storedName, id, true).response == UploadEndpoint.Success
  {
    PassPostsOnlyEligible(es, outcomes, p);
    forall r | r in p.requests && r.file.name != []
      ensures UploadFile(ToRequest(r), storedName, id, true).response == UploadEndpoint.Success
    {
      var k :| 0 <= k < |es| && Eligible(es[k]) && r == PayloadOf(es[k]);
      CardRequestHandled(es[k], storedName, id, true);
    }
  }
}

=== FILE: modal.dfy ===
/**
 * The search modal of the search page: whether it is shown, the text in
 * its input and in the always-visible mobile input, and the searches that
 * key presses start. A keydown reaches the listener of the input it was
 * typed in first and the window's listener after it; a click reaches the
 * modal's listener only when it lands inside the modal element.
 */
module Modal {
  import opened Wrappers

  datatype State = State(visible: bool, desktopValue: string, mobileValue: string)

  /** Where a key press is typed. */
  datatype Target = DesktopInput | MobileInput | Elsewhere

  datatype Event =
    | KeyDown(key: string, ctrl: bool, meta: bool, target: Target)
    | Type(target: Target, value: string)       // the user edits an input's text
    | Click(onOverlay: bool)                    // a click inside the modal element, on its overlay or not

  /** The outcome of one event: the new state, and the query of the search it starts, if any. */
  datatype Step = Step(state: State, search: Option<string>)

  predicate IsOpenShortcut(e: Event) {
    e.KeyDown? && (e.ctrl || e.meta) && e.key == "k"
  }

  /** The events after which the modal is hidden whatever it was before. */
  predicate Closes(e: Event) {
    || (e.KeyDown? && e.key == "Escape")
    || (e.KeyDown? && e.key == "Enter" && e.target == DesktopInput)
    || (e.Click? && e.onOverlay)
  }

  /** The listeners on the modal's own input: Enter hides the modal and searches its text. */
  function DesktopKey(s: State, key: string): Step {
    if key == "Enter" then Step(s.(visible := false), Some(s.desktopValue)) else Step(s, None)
  }

  /** The listener on the mobile input: Enter searches its text and empties it. */
  function MobileKey(s: State, key: string): Step {
    if key == "Enter" then Step(s.(mobileValue := ""), Some(s.mobileValue)) else Step(s, None)
  }

  /** The window's listener: Ctrl or Cmd with `k` shows the modal and empties its input; Escape hides it. */
  function WindowKey(s: State, key: string, ctrl: bool, meta: bool): State {
    var s1 := if (ctrl || meta) && key == "k" then s.(visible := true, desktopValue := "") else s;
    if key == "Escape" && s1.visible then s1.(visible := false) else s1
  }

  /** One event, with the listeners in the order the browser runs them. */
  function Next(s: State, e: Event): (r: Step)
    ensures IsOpenShortcut(e) ==> r.state.visible && r.state.desktopValue == ""
    ensures Closes(e) ==> !r.state.visible
    ensures !IsOpenShortcut(e) && !Closes(e) ==> r.state.visible == s.visible
    ensures r.search.Some? <==> e.KeyDown? && e.key == "Enter" && e.target != Elsewhere
    ensures e.KeyDown? && e.key == "Enter" && e.target == DesktopInput ==>
      r == Step(s.(visible := false), Some(s.desktopValue))
    ensures e.KeyDown? && e.key == "Enter" && e.target == MobileInput ==>
      r == Step(s.(mobileValue := ""), Some(s.mobileValue))
  {
    match e
    case Type(t, v) =>
      if t == DesktopInput then Step(s.(desktopValue := v), None)
      else if t == MobileInput then Step(s.(mobileValue := v), None)
      else Step(s, None)
    case Click(onOverlay) =>
      Step(if onOverlay then s.(visible := false) else s, None)
    case KeyDown(key, ctrl, meta, target) =>
      var first :=
        if target == DesktopInput then DesktopKey(s, key)
        else if target == MobileInput then MobileKey(s, key)
        else Step(s, None);
      Step(WindowKey(first.state, key, ctrl, meta), first.search)
  }

  /** The state after a sequence of events, and the searches they start, in order. */
  function Run(s: State, es: seq<Event>): (State, seq<string>)
    decreases |es|
  {
    if es == [] then (s, [])
    else
      var st := Next(s, es[0]);
      var rest := Run(st.state, es[1..]);
      (rest.0, (if st.search.Some? then [st.search.value] else []) + rest.1)
  }

  /**
   * The modal is shown after a run exactly when some event of it opened the
   * modal and none after that one closed it, or it was shown before and no
   * event closed it.
   */
  lemma {:induction false} RunVisible(s: State, es: seq<Event>)
    ensures Run(s, es).0.visible <==>
      || (exists i :: 0 <= i < |es| && IsOpenShortcut(es[i]) && forall j :: i < j < |es| ==> !Closes(es[j]))
      || (s.visible && forall j :: 0 <= j < |es| ==> !Closes(es[j]))
    decreases |es|
  {
    if es != [] {
      var s1 := Next(s, es[0]).state;
      var tail := es[1..];
      RunVisible(s1, tail);
      assert forall j :: 0 < j < |es| ==> es[j] == tail[j - 1];
      if Run(s, es).0.visible {
        if exists i :: 0 <= i < |tail| && IsOpenShortcut(tail[i]) && forall j :: i < j < |tail| ==> !Closes(tail[j]) {
          var i :| 0 <= i < |tail| && IsOpenShortcut(tail[i]) && forall j :: i < j < |tail| ==> !Closes(tail[j]);
          assert IsOpenShortcut(es[i + 1]);
          assert forall j :: i + 1 < j < |es| ==> !Closes(es[j]);
        } else if IsOpenShortcut(es[0]) {
          assert forall j :: 0 < j < |es| ==> !Closes(es[j]);
        } else {
          assert s.visible && !Closes(es[0]);
        }
      } else {
        OpenedThenClosed(s, es);
      }
    }
  }

  /** The converse half of one step of `RunVisible`. */
  lemma OpenedThenClosed(s: State, es: seq<Event>)
    requires es != []
    requires var tail := es[1..];
      Run(Next(s, es[0]).state, tail).0.visible <==>
        || (exists i :: 0 <= i < |tail| && IsOpenShortcut(tail[i]) && forall j :: i < j < |tail| ==> !Closes(tail[j]))
        || (Next(s, es[0]).state.visible && forall j :: 0 <= j < |tail| ==> !Closes(tail[j]))
    requires !Run(s, es).0.visible
    ensures !exists i :: 0 <= i < |es| && IsOpenShortcut(es[i]) && forall j :: i < j < |es| ==> !Closes(es[j])
    ensures !(s.visible && forall j :: 0 <= j < |es| ==> !Closes(es[j]))
  {
    var tail := es[1..];
    assert forall j :: 0 < j < |es| ==> es[j] == tail[j - 1];
    forall i | 0 <= i < |es| && IsOpenShortcut(es[i])
      ensures exists j :: i < j < |es| && Closes(es[j])
    {
      if i == 0 {
        assert Next(s, es[0]).state.visible;
        var j :| 0 <= j < |tail| && Closes(tail[j]);
        assert Closes(es[j + 1]);
      } else {
        assert IsOpenShortcut(tail[i - 1]);
        var j :| i - 1 < j < |tail| && Closes(tail[j]);
        assert Closes(es[j + 1]);
      }
    }
    if s.visible && forall j :: 0 <= j < |es| ==> !Closes(es[j]) {
      assert !Closes(es[0]);
      if IsOpenShortcut(es[0]) {
      } else {
        assert Next(s, es[0]).state.visible;
      }
    }
  }

  /** A run starts one search per Enter pressed in either input, and no other. */
  lemma {:induction false} RunSearchCount(s: State, es: seq<Event>)
    ensures |Run(s, es).1| == CountEnters(es)
    decreases |es|
  {
    if es != [] {
      RunSearchCount(Next(s, es[0]).state, es[1..]);
    }
  }

  predicate IsInputEnter(e: Event) {
    e.KeyDown? && e.key == "Enter" && e.target != Elsewhere
  }

  function CountEnters(es: seq<Event>): nat
    decreases |es|
  {
    if es == [] then 0 else (if IsInputEnter(es[0]) then 1 else 0) + CountEnters(es[1..])
  }
}

=== FILE: papers.dfy ===
/**
 * A row of the `papers` table and the order `ORDER BY exam_year DESC, subject`
 * imposes on rows.
 */
module Papers {
  import opened Wrappers
  import opened Text

  /** One row of the `papers` table; the optional columns may hold SQL NULL. */
  datatype Paper = Paper(
    id: nat,
    className: string,
    subject: string,
    semester: string,
    examYear: string,
    examType: string,
    paperCode: Option<string>,
    examNumber: Option<string>,
    medium: string,
    university: Option<string>,
    time: Option<string>,
    maxMarks: Option<string>,
    uploaderName: string,
    filename: string)

  /** The text columns of the table. */
  datatype Column =
    | Class | Subject | Semester | ExamYear | ExamType | PaperCode | ExamNumber
    | Medium | University | Time | MaxMarks | UploaderName | Filename

  function ColumnName(c: Column): string {
    match c
    case Class => "class"
    case Subject => "subject"
    case Semester => "semester"
    case ExamYear => "exam_year"
    case ExamType => "exam_type"
    case PaperCode => "paper_code"
    case ExamNumber => "exam_number"
    case Medium => "medium"
    case University => "university"
    case Time => "time"
    case MaxMarks => "max_marks"
    case UploaderName => "uploader_name"
    case Filename => "filename"
  }

  /** The value a row holds in a column; `None` is SQL NULL. */
  function ColumnValue(p: Paper, c: Column): Option<string> {
    match c
    case Class => Some(p.className)
    case Subject => Some(p.subject)
    case Semester => Some(p.semester)
    case ExamYear => Some(p.examYear)
    case ExamType => Some(p.examType)
    case PaperCode => p.paperCode
    case ExamNumber => p.examNumber
    case Medium => Some(p.medium)
    case University => p.university
    case Time => p.time
    case MaxMarks => p.maxMarks
    case UploaderName => Some(p.uploaderName)
    case Filename => Some(p.filename)
  }

  // ----------------------------------------------------------------- order

  /** `a` may come before `b` under `ORDER BY exam_year DESC, subject` (BINARY collation). */
  predicate Precedes(a: Paper, b: Paper) {
    StrLt(b.examYear, a.examYear) || (a.examYear == b.examYear && StrLe(a.subject, b.subject))
  }

  lemma PrecedesTotal(a: Paper, b: Paper)
    ensures Precedes(a, b) || Precedes(b, a)
  {
    StrLeTotal(a.examYear, b.examYear);
    StrLeTotal(a.subject, b.subject);
  }

  lemma PrecedesTransitive(a: Paper, b: Paper, c: Paper)
    requires Precedes(a, b) && Precedes(b, c)
    ensures Precedes(a, c)
  {
    if StrLt(b.examYear, a.examYear) && StrLt(c.examYear, b.examYear) {
      StrLeTransitive(c.examYear, b.examYear, a.examYear);
      if c.examYear == a.examYear { StrLeAntisymmetric(c.examYear, b.examYear); }
    } else if StrLt(b.examYear, a.examYear) {
      assert c.examYear == b.examYear;
    } else if StrLt(c.examYear, b.examYear) {
      assert a.examYear == b.examYear;
    } else {
      StrLeTransitive(a.subject, b.subject, c.subject);
    }
  }

  predicate Sorted(s: seq<Paper>) {
    forall i, j :: 0 <= i < j < |s| ==> Precedes(s[i], s[j])
  }

  /** A row that may precede every row of a sorted sequence can be put in front of it. */
  lemma SortedCons(x: Paper, s: seq<Paper>)
    requires Sorted(s)
    requires forall y :: y in s ==> Precedes(x, y)
    ensures Sorted([x] + s)
  {
    forall i, j | 0 <= i < j < |[x] + s| ensures Precedes(([x] + s)[i], ([x] + s)[j]) {
      if i == 0 { assert ([x] + s)[j] == s[j - 1]; assert s[j - 1] in s; }
    }
  }

  /** Places `p` in front of the first row it may precede. */
  function Insert(p: Paper, s: seq<Paper>): (r: seq<Paper>)
    requires Sorted(s)
    ensures Sorted(r)
    ensures multiset(r) == multiset(s) + multiset{p}
  {
    if s == [] then [p]
    else if Precedes(p, s[0]) then
      forall y | y in s ensures Precedes(p, y) {
        var j :| 0 <= j < |s| && s[j] == y;
        if j > 0 { PrecedesTransitive(p, s[0], s[j]); }
      }
      SortedCons(p, s);
      [p] + s
    else
      PrecedesTotal(p, s[0]);
      var rest := Insert(p, s[1..]);
      forall y | y in rest ensures Precedes(s[0], y) {
        assert y in multiset(rest);
        if y != p {
          assert y in multiset(s[1..]);
          var j :| 0 <= j < |s[1..]| && s[1..][j] == y;
          assert s[j + 1] == y;
        }
      }
      SortedCons(s[0], rest);
      assert s == [s[0]] + s[1..];
      [s[0]] + rest
  }

  /** The rows in the order the query's `ORDER BY exam_year DESC, subject` returns them. */
  function OrderBy(s: seq<Paper>): (r: seq<Paper>)
    ensures Sorted(r)
    ensures multiset(r) == multiset(s)
  {
    if s == [] then []
    else
      assert s == [s[0]] + s[1..];
      Insert(s[0], OrderBy(s[1..]))
  }
}

=== FILE: search_api.dfy ===
/**
 * `GET /api/papers?q=...`: query normalisation, term translation, the
 * AND-of-ORs `LIKE` condition over ten columns, and the result order.
 */
module SearchApi {
  import opened Wrappers
  import opened Text
  import opened Papers
  import opened Sql

  // ------------------------------------------------------- translation

  // The translation table, kept in the groups the source lists it in.
  const Numerals: map<string, string> := map["1" := "I", "2" := "II", "3" := "III", "4" := "IV", "5" := "V",
    "6" := "VI", "7" := "VII", "8" := "VIII", "9" := "IX", "10" := "X"]
  const NumberWords: map<string, string> := map["one" := "I", "two" := "II", "three" := "III", "four" := "IV",
    "five" := "V", "six" := "VI", "seven" := "VII", "eight" := "VIII"]
  const Ordinals: map<string, string> := map["1st" := "I", "2nd" := "II", "3rd" := "III", "4th" := "IV",
    "5th" := "V", "6th" := "VI", "7th" := "VII", "8th" := "VIII"]
  const LowerRomans: map<string, string> := map["i" := "I", "ii" := "II", "iii" := "III", "iv" := "IV",
    "v" := "V", "vi" := "VI", "vii" := "VII", "viii" := "VIII", "ix" := "IX", "x" := "X"]
  const Abbreviations: map<string, string> := map["sem" := "semester", "semester" := "semester"]
  const Subjects: map<string, string> := map["phy" := "physics", "pys" := "psychology",
    "env" := "environmental", "sci" := "science", "his" := "history", "eco" := "economics",
    "stats" := "statistics", "biotech" := "biotechnology", "cs" := "computer", "ps" := "political",
    "geo" := "geography", "zoo" := "zoology", "bot" := "botany", "eng" := "english",
    "hin" := "hindi", "chem" := "chemistry"]

  /** The groups that rewrite to an upper-case Roman numeral. */
  const RomanForms: map<string, string> := Numerals + NumberWords + Ordinals + LowerRomans

  /** Abbreviations, numerals and ordinals rewritten before searching. */
  const TranslationMap: map<string, string> := RomanForms + Abbreviations + Subjects

  /** `TRANSLATION_MAP.get(term, term)` */
  function Translate(t: string): string {
    if t in TranslationMap then TranslationMap[t] else t
  }

  predicate LowerInitialKeys(m: map<string, string>) {
    forall k :: k in m ==> k != [] && (IsLowerLetter(k[0]) || IsDigit(k[0]))
  }

  predicate UpperInitialValues(m: map<string, string>) {
    forall k :: k in m ==> m[k] != [] && IsUpper(m[k][0])
  }

  /** No value of `m` is a key of `g`. */
  predicate ValuesAvoid(m: map<string, string>, g: map<string, string>) {
    forall k :: k in m ==> m[k] !in g
  }

  lemma NumeralsShape() ensures LowerInitialKeys(Numerals) && UpperInitialValues(Numerals) {}
  lemma NumberWordsShape() ensures LowerInitialKeys(NumberWords) && UpperInitialValues(NumberWords) {}
  lemma OrdinalsShape() ensures LowerInitialKeys(Ordinals) && UpperInitialValues(Ordinals) {}
  lemma LowerRomansShape() ensures LowerInitialKeys(LowerRomans) && UpperInitialValues(LowerRomans) {}
  lemma AbbreviationsShape() ensures LowerInitialKeys(Abbreviations) {}
  lemma SubjectsShape() ensures LowerInitialKeys(Subjects) {}

  lemma UnionLowerInitialKeys(a: map<string, string>, b: map<string, string>)
    requires LowerInitialKeys(a) && LowerInitialKeys(b)
    ensures LowerInitialKeys(a + b)
  {
  }

  lemma UnionUpperInitialValues(a: map<string, string>, b: map<string, string>)
    requires UpperInitialValues(a) && UpperInitialValues(b)
    ensures UpperInitialValues(a + b)
  {
  }

  /** Every Roman-numeral rewrite starts with an upper-case letter, and no key of those groups does. */
  lemma RomanFormsShape()
    ensures LowerInitialKeys(RomanForms) && UpperInitialValues(RomanForms)
  {
    NumeralsShape(); NumberWordsShape(); OrdinalsShape(); LowerRomansShape();
    var a := Numerals + NumberWords;
    UnionLowerInitialKeys(Numerals, NumberWords);
    UnionUpperInitialValues(Numerals, NumberWords);
    UnionLowerInitialKeys(a, Ordinals);
    UnionUpperInitialValues(a, Ordinals);
    UnionLowerInitialKeys(a + Ordinals, LowerRomans);
    UnionUpperInitialValues(a + Ordinals, LowerRomans);
  }

  /** Every key of the table starts with a lower-case letter or a digit. */
  lemma KeysLowerInitial()
    ensures LowerInitialKeys(TranslationMap)
  {
    RomanFormsShape(); AbbreviationsShape(); SubjectsShape();
    UnionLowerInitialKeys(RomanForms, Abbreviations);
    UnionLowerInitialKeys(RomanForms + Abbreviations, Subjects);
  }

  lemma SubjectsAvoidRomanForms() ensures ValuesAvoid(Subjects, RomanForms) {
    SubjectsAvoidNumerals(); SubjectsAvoidNumberWords(); SubjectsAvoidOrdinals(); SubjectsAvoidLowerRomans();
  }
  lemma SubjectsAvoidNumerals() ensures ValuesAvoid(Subjects, Numerals) {}
  lemma SubjectsAvoidNumberWords() ensures ValuesAvoid(Subjects, NumberWords) {}
  lemma SubjectsAvoidOrdinals() ensures ValuesAvoid(Subjects, Ordinals) {}
  lemma SubjectsAvoidLowerRomans() ensures ValuesAvoid(Subjects, LowerRomans) {}
  lemma SubjectsAvoidAbbreviations() ensures ValuesAvoid(Subjects, Abbreviations) {}
  lemma SubjectsAvoidSubjects() ensures ValuesAvoid(Subjects, Subjects) {}

  /** No expanded subject name is itself an abbreviation. */
  lemma SubjectValuesAvoid()
    ensures ValuesAvoid(Subjects, TranslationMap)
  {
    SubjectsAvoidRomanForms(); SubjectsAvoidAbbreviations(); SubjectsAvoidSubjects();
  }

  /** A Roman-numeral rewrite is never a key: keys do not start with an upper-case letter. */
  lemma RomanValuesNotKeys(k: string)
    requires k in TranslationMap && k !in Abbreviations && k !in Subjects
    ensures TranslationMap[k] !in TranslationMap
  {
    assert TranslationMap[k] == RomanForms[k];
    RomanFormsShape();
    KeysLowerInitial();
  }

  /** An expanded subject name is never a key. */
  lemma SubjectValueNotKey(k: string)
    requires k in Subjects
    ensures TranslationMap[k] !in TranslationMap
  {
    assert TranslationMap[k] == Subjects[k];
    SubjectValuesAvoid();
  }

  /** Both abbreviations of "semester" expand to "semester". */
  lemma AbbreviationValue(k: string)
    requires k in Abbreviations && k !in Subjects
    ensures TranslationMap[k] == "semester"
  {
    assert TranslationMap[k] == Abbreviations[k];
  }

  /** "semester" is the one key that is also a value, and it maps to itself. */
  lemma SemesterFixed()
    ensures "semester" in TranslationMap && TranslationMap["semester"] == "semester"
  {
    SemesterNotSubject();
    AbbreviationValue("semester");
  }

  lemma SemesterNotSubject() ensures "semester" !in Subjects {}

  /** Every value of the table is either not a key or a key that maps to itself. */
  lemma TranslationValuesFixed(k: string)
    requires k in TranslationMap
    ensures TranslationMap[k] !in TranslationMap || TranslationMap[TranslationMap[k]] == TranslationMap[k]
  {
    if k in Subjects {
      SubjectValueNotKey(k);
    } else if k in Abbreviations {
      AbbreviationValue(k);
      SemesterFixed();
    } else {
      RomanValuesNotKeys(k);
    }
  }

  /** Translating a term twice is the same as translating it once. */
  lemma TranslateIdempotent(t: string)
    ensures Translate(Translate(t)) == Translate(t)
  {
    if t in TranslationMap {
      TranslationValuesFixed(t);
    }
  }

  // ------------------------------------------------------------- query

  /** `request.args.get('q', '').strip().lower()` */
  function Normalize(q: string): (r: string)
    ensures |r| <= |q|
    ensures r == [] <==> AllSpace(q, IsPySpace)
    ensures r != [] ==> !IsPySpace(r[0]) && !IsPySpace(r[|r| - 1])
  {
    LowerKeepsSpace();
    Lower(Strip(q, IsPySpace))
  }

  /** A normalised query normalises to itself. */
  lemma NormalizeIdempotent(q: string)
    ensures Normalize(Normalize(q)) == Normalize(q)
  {
    StripTrimmed(Normalize(q), IsPySpace);
    LowerIdempotent(Strip(q, IsPySpace));
  }

  /** `search_query.split()` */
  function RawTerms(q: string): seq<string> {
    Split(Normalize(q), IsPySpace)
  }

  /** Applies `f` to every word. */
  function MapWords(ws: seq<string>, f: string -> string): (r: seq<string>)
    ensures |r| == |ws| && forall i :: 0 <= i < |ws| ==> r[i] == f(ws[i])
  {
    seq(|ws|, i requires 0 <= i < |ws| => f(ws[i]))
  }

  lemma MapWordsAppend(a: seq<string>, b: seq<string>, f: string -> string)
    ensures MapWords(a + b, f) == MapWords(a, f) + MapWords(b, f)
  {
  }

  /** The processed terms: each raw term through the translation table. */
  function Terms(q: string): seq<string> {
    MapWords(RawTerms(q), Translate)
  }

  /** The raw terms are the words of the query as typed, lower-cased: stripping changes none of them. */
  lemma RawTermsAreWords(q: string)
    ensures RawTerms(q) == MapLower(Split(q, IsPySpace))
  {
    LowerKeepsSpace();
    SplitLower(Strip(q, IsPySpace), IsPySpace);
    SplitStrip(q, IsPySpace);
  }

  /** One term per word of the query, in order, each lower-cased and then translated. */
  lemma TermsOfQuery(q: string)
    ensures |Terms(q)| == |Split(q, IsPySpace)|
    ensures forall i :: 0 <= i < |Terms(q)| ==> Terms(q)[i] == Translate(Lower(Split(q, IsPySpace)[i]))
  {
    RawTermsAreWords(q);
  }

  /** A query that is not blank yields at least one term, and a blank one yields none. */
  lemma TermsEmpty(q: string)
    ensures Terms(q) == [] <==> Normalize(q) == []
  {
    SplitEmpty(Normalize(q), IsPySpace);
  }

  /** Words typed with single spaces come back as the terms, lower-cased and translated. */
  lemma TermsOfJoinedWords(ws: seq<string>)
    requires forall i :: 0 <= i < |ws| ==> ws[i] != [] && NoSpace(ws[i], IsPySpace)
    ensures |Terms(JoinWords(ws))| == |ws|
    ensures forall i :: 0 <= i < |ws| ==> Terms(JoinWords(ws))[i] == Translate(Lower(ws[i]))
  {
    SplitJoinWords(ws, IsPySpace);
    TermsOfQuery(JoinWords(ws));
  }

  /** Terms of two queries joined by whitespace are the terms of each, in order. */
  lemma TermsConcat(q: string, m: string, w: string)
    requires m != [] && AllSpace(m, IsPySpace)
    ensures Terms(q + m + w) == Terms(q) + Terms(w)
  {
    RawTermsAreWords(q + m + w);
    RawTermsAreWords(q);
    RawTermsAreWords(w);
    SplitConcat(q, m, w, IsPySpace);
    MapLowerAppend(Split(q, IsPySpace), Split(w, IsPySpace));
    MapWordsAppend(RawTerms(q), RawTerms(w), Translate);
  }

  // --------------------------------------------------------- condition

  /** The columns a term is looked for in. */
  const SearchColumns: seq<Column> :=
    [Class, Subject, Semester, ExamYear, ExamType, PaperCode, ExamNumber, Medium, University, UploaderName]

  /** `(LOWER(class) LIKE '%t%' OR LOWER(subject) LIKE '%t%' OR ...)` */
  function TermClauses(t: string): seq<Clause> {
    seq(|SearchColumns|, j requires 0 <= j < |SearchColumns| => LowerLike(SearchColumns[j], "%" + t + "%"))
  }

  /** One disjunction per term, joined with AND. */
  function BuildCondition(ts: seq<string>): Condition {
    seq(|ts|, i requires 0 <= i < |ts| => TermClauses(ts[i]))
  }

  /** The column holds a value that contains `t`, ignoring ASCII case. */
  predicate ColumnHas(p: Paper, c: Column, t: string) {
    match ColumnValue(p, c)
    case None => false
    case Some(v) => Contains(Lower(v), Lower(t))
  }

  predicate TermMatches(p: Paper, t: string) {
    exists j :: 0 <= j < |SearchColumns| && ColumnHas(p, SearchColumns[j], t)
  }

  /** Every term occurs in at least one searched column of the row. */
  predicate Matches(p: Paper, ts: seq<string>) {
    forall i :: 0 <= i < |ts| ==> TermMatches(p, ts[i])
  }

  /** For a term without LIKE wildcards, its disjunction is TRUE exactly when some column contains it. */
  lemma TermClausesTrue(p: Paper, t: string)
    requires NoWildcards(t)
    ensures SomeClauseTrue(p, TermClauses(t)) <==> TermMatches(p, t)
  {
    var d := TermClauses(t);
    forall j | 0 <= j < |SearchColumns|
      ensures ClauseTruth(p, d[j]) == TRUE <==> ColumnHas(p, SearchColumns[j], t)
    {
      match ColumnValue(p, SearchColumns[j])
      case None =>
      case Some(v) =>
        LikeContains(t, Lower(v));
        LowerIdempotent(v);
    }
  }

  /** The built WHERE clause accepts a row exactly when every wildcard-free term matches it. */
  lemma WhereBuildCondition(p: Paper, ts: seq<string>)
    requires forall i :: 0 <= i < |ts| ==> NoWildcards(ts[i])
    ensures Where(p, BuildCondition(ts)) <==> Matches(p, ts)
  {
    var cond := BuildCondition(ts);
    WhereIff(p, cond);
    forall i | 0 <= i < |ts| ensures SomeClauseTrue(p, cond[i]) <==> TermMatches(p, ts[i]) {
      TermClausesTrue(p, ts[i]);
    }
  }

  lemma BuildConditionAppend(ts: seq<string>, us: seq<string>)
    ensures BuildCondition(ts + us) == BuildCondition(ts) + BuildCondition(us)
  {
  }

  // ----------------------------------------------------------- request

  /** The rows `GET /api/papers?q=...` returns, in response order. */
  function GetPapers(db: seq<Paper>, q: string): (r: seq<Paper>)
    ensures Sorted(r)
    ensures Normalize(q) == [] ==> multiset(r) == multiset(db)
    ensures Normalize(q) != [] ==> forall p ::
      multiset(r)[p] == if Where(p, BuildCondition(Terms(q))) then multiset(db)[p] else 0
  {
    if Normalize(q) == [] then OrderBy(db)
    else OrderBy(Select(db, BuildCondition(Terms(q))))
  }

  /** A row is returned exactly when every processed term occurs in one of its searched columns. */
  lemma GetPapersMatches(db: seq<Paper>, q: string, p: Paper)
    requires forall i :: 0 <= i < |Terms(q)| ==> NoWildcards(Terms(q)[i])
    ensures p in GetPapers(db, q) <==> p in db && Matches(p, Terms(q))
  {
    var r := GetPapers(db, q);
    assert p in r <==> p in multiset(r);
    assert p in db <==> p in multiset(db);
    if Normalize(q) == [] {
      TermsEmpty(q);
    } else {
      WhereBuildCondition(p, Terms(q));
    }
  }

  /** Adding words to a query never returns a row the shorter query did not. */
  lemma GetPapersNarrows(db: seq<Paper>, q: string, m: string, w: string)
    requires m != [] && AllSpace(m, IsPySpace)
    ensures multiset(GetPapers(db, q + m + w)) <= multiset(GetPapers(db, q))
  {
    TermsConcat(q, m, w);
    TermsEmpty(q);
    TermsEmpty(q + m + w);
    BuildConditionAppend(Terms(q), Terms(w));
    var c := BuildCondition(Terms(q));
    var r := GetPapers(db, q + m + w);
    var r0 := GetPapers(db, q);
    forall p ensures multiset(r)[p] <= multiset(r0)[p] {
      if Normalize(q + m + w) != [] && Normalize(q) != [] {
        WhereAppend(p, c, BuildCondition(Terms(w)));
      }
    }
  }

  /**
   * Repeating the query's words does not change the response. The order of
   * rows tied on `exam_year` and `subject` is the one `Papers.OrderBy` fixes;
   * SQL leaves it unspecified, so against a real database the statement is
   * about the response up to that tie order.
   */
  lemma GetPapersRepeat(db: seq<Paper>, q: string, m: string)
    requires m != [] && AllSpace(m, IsPySpace)
    ensures GetPapers(db, q + m + q) == GetPapers(db, q)
  {
    TermsConcat(q, m, q);
    var c := BuildCondition(Terms(q));
    BuildConditionAppend(Terms(q), Terms(q));
    if Normalize(q) == [] {
      AllSpaceConcat(q, m, IsPySpace);
      AllSpaceConcat(q + m, q, IsPySpace);
    } else {
      forall p ensures Where(p, c + c) == Where(p, c) {
        WhereDuplicate(p, c);
      }
      SelectSameCondition(db, c + c, c);
    }
  }
}

=== FILE: sql.dfy ===
/**
 * The part of SQLite's semantics the search query relies on: three-valued
 * logic, `LOWER(col) LIKE pattern` with SQLite's default ASCII case-folding
 * and no ESCAPE character, and a `WHERE` clause that is an AND of ORs of such
 * comparisons.
 */
module Sql {
  import opened Wrappers
  import opened Text
  import opened Papers

  /** SQL truth values; UNKNOWN is what comparisons with NULL yield. */
  datatype Truth = TRUE | FALSE | UNKNOWN

  function Or(a: Truth, b: Truth): Truth {
    if a == TRUE || b == TRUE then TRUE
    else if a == UNKNOWN || b == UNKNOWN then UNKNOWN
    else FALSE
  }

  function And(a: Truth, b: Truth): Truth {
    if a == FALSE || b == FALSE then FALSE
    else if a == UNKNOWN || b == UNKNOWN then UNKNOWN
    else TRUE
  }

  /** `t0 OR t1 OR ...`; an empty disjunction is FALSE. */
  function AnyOf(ts: seq<Truth>): (r: Truth)
    ensures r == TRUE <==> exists i :: 0 <= i < |ts| && ts[i] == TRUE
    ensures r == FALSE <==> forall i :: 0 <= i < |ts| ==> ts[i] == FALSE
  {
    if ts == [] then FALSE
    else
      var rest := AnyOf(ts[1..]);
      assert forall i :: 1 <= i < |ts| ==> ts[i] == ts[1..][i - 1];
      Or(ts[0], rest)
  }

  /** `t0 AND t1 AND ...`; an empty conjunction is TRUE. */
  function AllOf(ts: seq<Truth>): (r: Truth)
    ensures r == TRUE <==> forall i :: 0 <= i < |ts| ==> ts[i] == TRUE
    ensures r == FALSE <==> exists i :: 0 <= i < |ts| && ts[i] == FALSE
  {
    if ts == [] then TRUE
    else
      var rest := AllOf(ts[1..]);
      assert forall i :: 1 <= i < |ts| ==> ts[i] == ts[1..][i - 1];
      And(ts[0], rest)
  }

  // ------------------------------------------------------------------ LIKE

  /**
   * SQLite `s LIKE p` without ESCAPE: `%` matches any run of characters,
   * `_` any single character, anything else one character equal up to
   * ASCII case.
   */
  predicate Like(p: string, s: string)
    decreases |p| + |s|
  {
    if p == [] then s == []
    else if p[0] == '%' then Like(p[1..], s) || (s != [] && Like(p, s[1..]))
    else s != [] && (p[0] == '_' || LowerChar(p[0]) == LowerChar(s[0])) && Like(p[1..], s[1..])
  }

  predicate NoWildcards(t: string) {
    forall i :: 0 <= i < |t| ==> t[i] != '%' && t[i] != '_'
  }

  /** `t` is a prefix of `u` up to ASCII case. */
  predicate CiPrefix(t: string, u: string) {
    |t| <= |u| && Lower(u[..|t|]) == Lower(t)
  }

  lemma {:induction false} LikePercentAll(s: string)
    ensures Like("%", s)
    decreases |s|
  {
    if s != [] { LikePercentAll(s[1..]); }
  }

  /** A leading `%` lets the rest of the pattern match any suffix. */
  lemma {:induction false} LikeLeadingPercent(p: string, s: string)
    ensures Like("%" + p, s) <==> exists k :: 0 <= k <= |s| && Like(p, s[k..])
    decreases |s|
  {
    var q := "%" + p;
    assert q[1..] == p;
    assert s[0..] == s;
    if s != [] {
      LikeLeadingPercent(p, s[1..]);
      assert forall k :: 1 <= k <= |s| ==> s[k..] == s[1..][k - 1..];
      if exists k :: 0 <= k <= |s| && Like(p, s[k..]) {
        var k :| 0 <= k <= |s| && Like(p, s[k..]);
        if k > 0 { assert Like(p, s[1..][k - 1..]); }
      }
    }
  }

  /** A wildcard-free pattern followed by `%` matches exactly the strings it prefixes. */
  lemma {:induction false} LikeLiteralPrefix(t: string, u: string)
    requires NoWildcards(t)
    ensures Like(t + "%", u) <==> CiPrefix(t, u)
    decreases |t|
  {
    if t == [] {
      LikePercentAll(u);
      assert t + "%" == "%";
    } else {
      var q := t + "%";
      assert q[0] == t[0] && q[1..] == t[1..] + "%";
      if u != [] {
        LikeLiteralPrefix(t[1..], u[1..]);
        if |t| <= |u| {
          assert u[..|t|] == [u[0]] + u[1..][..|t| - 1];
          assert t == [t[0]] + t[1..];
          LowerAppend([u[0]], u[1..][..|t| - 1]);
          LowerAppend([t[0]], t[1..]);
          assert Lower(u[..|t|])[0] == LowerChar(u[0]);
          assert Lower(t)[0] == LowerChar(t[0]);
          assert Lower(u[..|t|])[1..] == Lower(u[1..][..|t| - 1]);
          assert Lower(t)[1..] == Lower(t[1..]);
        }
      }
    }
  }

  /** `LIKE '%t%'` with a wildcard-free `t` is case-insensitive substring search. */
  lemma LikeContains(t: string, s: string)
    requires NoWildcards(t)
    ensures Like("%" + t + "%", s) <==> Contains(Lower(s), Lower(t))
  {
    assert "%" + t + "%" == "%" + (t + "%");
    LikeLeadingPercent(t + "%", s);
    forall k | 0 <= k <= |s| ensures Like(t + "%", s[k..]) <==> OccursAt(Lower(s), Lower(t), k) {
      LikeLiteralPrefix(t, s[k..]);
      if k + |t| <= |s| {
        assert s[k..][..|t|] == s[k..k + |t|];
        assert Lower(s)[k..k + |t|] == Lower(s[k..k + |t|]);
      }
    }
    if Contains(Lower(s), Lower(t)) {
      var k :| OccursAt(Lower(s), Lower(t), k);
      assert Like(t + "%", s[k..]);
    }
  }

  // ---------------------------------------------------------------- WHERE

  /** One comparison `LOWER(column) LIKE pattern`. */
  datatype Clause = LowerLike(column: Column, pattern: string)

  /** `(c11 OR c12 ...) AND (c21 OR ...) AND ...` */
  type Condition = seq<seq<Clause>>

  /** NULL propagates: LOWER(NULL) LIKE p is UNKNOWN. */
  function ClauseTruth(p: Paper, c: Clause): Truth {
    match ColumnValue(p, c.column)
    case None => UNKNOWN
    case Some(v) => if Like(c.pattern, Lower(v)) then TRUE else FALSE
  }

  function DisjunctionTruth(p: Paper, d: seq<Clause>): Truth {
    AnyOf(seq(|d|, k requires 0 <= k < |d| => ClauseTruth(p, d[k])))
  }

  function ConditionTruth(p: Paper, cond: Condition): Truth {
    AllOf(seq(|cond|, i requires 0 <= i < |cond| => DisjunctionTruth(p, cond[i])))
  }

  /** A row passes `WHERE cond` only when the condition is TRUE (not FALSE, not UNKNOWN). */
  predicate Where(p: Paper, cond: Condition) {
    ConditionTruth(p, cond) == TRUE
  }

  /** Some comparison of the disjunction is TRUE. */
  predicate SomeClauseTrue(p: Paper, d: seq<Clause>) {
    exists k :: 0 <= k < |d| && ClauseTruth(p, d[k]) == TRUE
  }

  lemma DisjunctionTrue(p: Paper, d: seq<Clause>)
    ensures DisjunctionTruth(p, d) == TRUE <==> SomeClauseTrue(p, d)
  {
    var cs := seq(|d|, k requires 0 <= k < |d| => ClauseTruth(p, d[k]));
    if DisjunctionTruth(p, d) == TRUE {
      var k :| 0 <= k < |cs| && cs[k] == TRUE;
      assert ClauseTruth(p, d[k]) == TRUE;
    }
    if SomeClauseTrue(p, d) {
      var k :| 0 <= k < |d| && ClauseTruth(p, d[k]) == TRUE;
      assert cs[k] == TRUE;
    }
  }

  /** A row passes the WHERE clause iff every disjunction has a TRUE comparison. */
  lemma WhereIff(p: Paper, cond: Condition)
    ensures Where(p, cond) <==> forall i :: 0 <= i < |cond| ==> SomeClauseTrue(p, cond[i])
  {
    var ds := seq(|cond|, i requires 0 <= i < |cond| => DisjunctionTruth(p, cond[i]));
    forall i | 0 <= i < |cond| ensures ds[i] == TRUE <==> SomeClauseTrue(p, cond[i]) {
      DisjunctionTrue(p, cond[i]);
    }
    assert ConditionTruth(p, cond) == AllOf(ds);
  }

  /** Conditions joined with AND accept a row when both do. */
  lemma WhereAppend(p: Paper, c1: Condition, c2: Condition)
    ensures Where(p, c1 + c2) <==> Where(p, c1) && Where(p, c2)
  {
    WhereIff(p, c1);
    WhereIff(p, c2);
    WhereIff(p, c1 + c2);
    var c := c1 + c2;
    if Where(p, c) {
      forall i | 0 <= i < |c2| ensures SomeClauseTrue(p, c2[i]) {
        assert c[|c1| + i] == c2[i];
      }
      forall i | 0 <= i < |c1| ensures SomeClauseTrue(p, c1[i]) {
        assert c[i] == c1[i];
      }
    }
    if Where(p, c1) && Where(p, c2) {
      forall i | 0 <= i < |c| ensures SomeClauseTrue(p, c[i]) {
        if i < |c1| { assert c[i] == c1[i]; } else { assert c[i] == c2[i - |c1|]; }
      }
    }
  }

  /** Repeating a condition changes nothing. */
  lemma WhereDuplicate(p: Paper, c: Condition)
    ensures Where(p, c + c) <==> Where(p, c)
  {
    WhereAppend(p, c, c);
  }

  /** `SELECT * FROM papers WHERE cond`, in table order. */
  function Select(db: seq<Paper>, cond: Condition): (r: seq<Paper>)
    ensures forall p :: p in r <==> p in db && Where(p, cond)
    ensures forall p :: multiset(r)[p] == if Where(p, cond) then multiset(db)[p] else 0
  {
    if db == [] then []
    else
      var rest := Select(db[1..], cond);
      assert db == [db[0]] + db[1..];
      if Where(db[0], cond) then [db[0]] + rest else rest
  }

  /** Two conditions that accept the same rows select the same rows. */
  lemma {:induction false} SelectSameCondition(db: seq<Paper>, c1: Condition, c2: Condition)
    requires forall p :: Where(p, c1) == Where(p, c2)
    ensures Select(db, c1) == Select(db, c2)
  {
    if db != [] {
      SelectSameCondition(db[1..], c1, c2);
    }
  }
}

=== FILE: terminal.dfy ===
/**
 * The search page's terminal: the lines `performSearch` and `start` append
 * to the output. A line is one of the kinds below; `Html` gives the markup
 * it is written with and `IsComment` whether it carries the `comment` class.
 * Scrolling, timers and the transient progress bars are not part of it.
 * The network answers and what the browser reports are inputs.
 */
module Terminal {
  import opened Wrappers
  import opened Text
  import opened UriCodec

  /** One paper of the JSON array `/api/papers` answers with, as far as the page reads it. */
  datatype PaperJson = PaperJson(className: string, subject: string, semester: string, examYear: string, url: string)

  /** How `fetch('/api/papers')` at startup goes. */
  datatype ConnectOutcome =
    | Connected(count: nat)   // an ok response holding an array of `count` papers
    | ServerError             // a response whose status is not ok
    | Unreachable             // the fetch or the JSON parsing throws

  datatype Line =
    | Welcome
    | Connection(outcome: ConnectOutcome)
    | SystemCommand(command: string)
    | DeviceHeader
    | Cores(text: string)
    | Memory(text: string)
    | StorageQuota(usedMb: string, quotaMb: string)
    | StorageUnsupported
    | SecurityNote
    | Ready
    | Redirecting
    | SearchCommand(query: string)
    | Found(count: nat)
    | Result(paper: PaperJson)
    | NoResults
    | SearchError
    | SearchAgain

  /** `${class} ${subject} (Sem ${semester}) - ${exam_year}` */
  function Title(p: PaperJson): string {
    p.className + " " + p.subject + " (Sem " + p.semester + ") - " + p.examYear
  }

  function Highlight(s: string): string {
    "<span class=\"highlight\">" + s + "</span>"
  }

  function Prompt(user: string, command: string): string {
    "<span class=\"prompt\">" + user + "@archives:~$</span> <span class=\"command\">" + command + "</span>"
  }

  const ConnectedBefore := "// Connected. <span class=\"highlight\">"
  const ConnectedAfter := "</span> papers found in the database."

  /** The markup each line is appended with. */
  function Html(l: Line): string {
    match l
    case Welcome => "// Welcome to the Terminal Archives."
    case Connection(Connected(n)) => ConnectedBefore + NatToString(n) + ConnectedAfter
    case Connection(ServerError) => "// Connection to archives failed (Server Error)."
    case Connection(Unreachable) => "// Connection to archives failed."
    case SystemCommand(c) => Prompt("system", c)
    case DeviceHeader => "Device Information:"
    case Cores(t) => "  - Logical CPU Cores: " + Highlight(t)
    case Memory(t) => "  - Device Memory (RAM): " + Highlight(t)
    case StorageQuota(used, quota) => "  - Browser Storage Quota: " + Highlight(used + " MB used / " + quota + " MB total")
    case StorageUnsupported => "  - Browser Storage: API not supported."
    case SecurityNote => "// Note: Browser security prevents access to total disk space or system RAM."
    case Ready => "System ready. <span class=\"desktop-only\">Press Ctrl + K to search the database.</span>"
    case Redirecting => "// Redirecting to Admin Login page..."
    case SearchCommand(q) => Prompt("user", "search --query=\"" + q + "\"")
    case Found(n) => "Found " + Highlight(NatToString(n)) + " result(s):"
    case Result(p) =>
      "  <div class=\"search-result\">[" + p.examYear + "] <a href=\"" + p.url + "\" target=\"_blank\">" + Title(p) + "</a></div>"
    case NoResults => "No results found for your query."
    case SearchError => "// Error connecting to the search API."
    case SearchAgain => "<br/><span class=\"desktop-only\">// Press Ctrl + K to search again.</span>"
  }

  /** The lines appended with the `comment` class. */
  predicate IsComment(l: Line) {
    || l == Welcome || l == Connection(ServerError) || l == Connection(Unreachable)
    || l == SecurityNote || l == Redirecting || l == SearchError
  }

  /** How many elements of `s` satisfy `p`. */
  function CountWhere<T>(s: seq<T>, p: T -> bool): nat
    decreases |s|
  {
    if s == [] then 0 else (if p(s[0]) then 1 else 0) + CountWhere(s[1..], p)
  }

  lemma {:induction false} CountWhereAppend<T>(a: seq<T>, b: seq<T>, p: T -> bool)
    ensures CountWhere(a + b, p) == CountWhere(a, p) + CountWhere(b, p)
    decreases |a|
  {
    if a == [] {
      assert a + b == b;
    } else {
      assert (a + b)[1..] == a[1..] + b;
      CountWhereAppend(a[1..], b, p);
    }
  }

  // -------------------------------------------------------------- search

  /** The search request either yields a JSON array, or the fetch or the JSON parsing throws. */
  datatype SearchOutcome = Received(papers: seq<PaperJson>) | Failed

  /** What a search does: the lines it appends, the URL it fetches, whether it leaves for the login page. */
  datatype SearchRun = SearchRun(lines: seq<Line>, request: Option<string>, redirect: bool)

  const UploadCommand := "upload"
  const SearchPath := "/api/papers?q="

  /** `query.trim().toLowerCase() === 'upload'` */
  predicate IsUploadCommand(query: string) {
    Lower(Strip(query, IsJsSpace)) == UploadCommand
  }

  /** One result line per paper, in the order of the response. */
  function ResultLines(ps: seq<PaperJson>): (r: seq<Line>)
    ensures |r| == |ps|
    ensures forall i :: 0 <= i < |ps| ==> r[i] == Result(ps[i])
    decreases |ps|
  {
    if ps == [] then [] else [Result(ps[0])] + ResultLines(ps[1..])
  }

  /** The lines between the command line and the closing hint. */
  function OutcomeLines(outcome: SearchOutcome): seq<Line> {
    match outcome
    case Failed => [SearchError]
    case Received(ps) => if |ps| > 0 then [Found(|ps|)] + ResultLines(ps) else [NoResults]
  }

  /** `performSearch(query)`, given what the search request yields. */
  function PerformSearch(query: string, outcome: SearchOutcome): (r: SearchRun)
    ensures r.request.None? <==> IsUploadCommand(query)
    ensures r.redirect <==> IsUploadCommand(query)
    ensures IsUploadCommand(query) ==> r.lines == [Redirecting]
    ensures !IsUploadCommand(query) ==>
      && r.request == Some(SearchPath + EncodeUriComponent(query))
      && |r.lines| >= 3 && r.lines[0] == SearchCommand(query) && r.lines[|r.lines| - 1] == SearchAgain
    ensures !IsUploadCommand(query) && outcome.Received? && |outcome.papers| > 0 ==>
      && |r.lines| == |outcome.papers| + 3 && r.lines[1] == Found(|outcome.papers|)
      && forall i :: 0 <= i < |outcome.papers| ==> r.lines[i + 2] == Result(outcome.papers[i])
    ensures !IsUploadCommand(query) && outcome == Received([]) ==> r.lines == [SearchCommand(query), NoResults, SearchAgain]
    ensures !IsUploadCommand(query) && outcome.Failed? ==> r.lines == [SearchCommand(query), SearchError, SearchAgain]
  {
    if IsUploadCommand(query) then SearchRun([Redirecting], None, true)
    else
      SearchRun([SearchCommand(query)] + OutcomeLines(outcome) + [SearchAgain],
        Some(SearchPath + EncodeUriComponent(query)), false)
  }

  /** The shortcut fires exactly for "upload" in any letter case with only whitespace around it. */
  lemma UploadCommandForms(query: string)
    ensures IsUploadCommand(query) <==>
      exists pre, w, post :: query == pre + w + post && AllSpace(pre, IsJsSpace) && AllSpace(post, IsJsSpace)
        && Lower(w) == UploadCommand
  {
    if IsUploadCommand(query) {
      var pre, post := StripSlice(query, IsJsSpace);
      assert query == pre + Strip(query, IsJsSpace) + post;
    }
    if exists pre, w, post :: query == pre + w + post && AllSpace(pre, IsJsSpace) && AllSpace(post, IsJsSpace)
        && Lower(w) == UploadCommand {
      var pre, w, post :| query == pre + w + post && AllSpace(pre, IsJsSpace) && AllSpace(post, IsJsSpace)
        && Lower(w) == UploadCommand;
      assert LowerChar(w[0]) == 'u' && LowerChar(w[|w| - 1]) == 'd';
      StripPadded(pre, w, post, IsJsSpace);
    }
  }

  /** The request the search sends carries the raw query, which the server reads back unchanged. */
  lemma SearchRequestCarriesQuery(query: string, outcome: SearchOutcome)
    requires !IsUploadCommand(query)
    ensures var url := PerformSearch(query, outcome).request.value;
      && IsPrefix(SearchPath, url) && DecodeComponent(url[|SearchPath|..]) == Some(query)
  {
    var url := PerformSearch(query, outcome).request.value;
    assert url[..|SearchPath|] == SearchPath && url[|SearchPath|..] == EncodeUriComponent(query);
    DecodeEncode(query);
  }

  /** A line reporting how the search went: the count, no results, or the error. */
  predicate IsOutcomeLine(l: Line) {
    l.Found? || l.NoResults? || l.SearchError?
  }

  predicate IsResultLine(l: Line) {
    l.Result?
  }

  lemma {:induction false} ResultLinesKind(ps: seq<PaperJson>)
    ensures CountWhere(ResultLines(ps), IsResultLine) == |ps|
    ensures CountWhere(ResultLines(ps), IsOutcomeLine) == 0
    decreases |ps|
  {
    if ps != [] {
      assert ResultLines(ps)[1..] == ResultLines(ps[1..]);
      ResultLinesKind(ps[1..]);
    }
  }

  lemma OutcomeLinesKind(outcome: SearchOutcome)
    ensures CountWhere(OutcomeLines(outcome), IsOutcomeLine) == 1
    ensures CountWhere(OutcomeLines(outcome), IsResultLine) == if outcome.Received? then |outcome.papers| else 0
  {
    match outcome
    case Failed =>
      assert OutcomeLines(outcome)[1..] == [];
    case Received(ps) =>
      if |ps| > 0 {
        ResultLinesKind(ps);
        CountWhereAppend([Found(|ps|)], ResultLines(ps), IsOutcomeLine);
        CountWhereAppend([Found(|ps|)], ResultLines(ps), IsResultLine);
      } else {
        assert OutcomeLines(outcome)[1..] == [];
      }
  }

  /**
   * A search other than the shortcut reports its outcome on exactly one
   * line, and lists exactly as many results as the response holds.
   */
  lemma SearchReportsOnce(query: string, outcome: SearchOutcome)
    requires !IsUploadCommand(query)
    ensures var lines := PerformSearch(query, outcome).lines;
      && CountWhere(lines, IsOutcomeLine) == 1
      && CountWhere(lines, IsResultLine) == (if outcome.Received? then |outcome.papers| else 0)
  {
    var c := [SearchCommand(query)];
    var m := OutcomeLines(outcome);
    var h := [SearchAgain];
    OutcomeLinesKind(outcome);
    assert c[1..] == [] && h[1..] == [];
    CountWhereAppend(c, m, IsOutcomeLine);
    CountWhereAppend(c + m, h, IsOutcomeLine);
    CountWhereAppend(c, m, IsResultLine);
    CountWhereAppend(c + m, h, IsResultLine);
  }

  // ------------------------------------------------------------- startup

  /** `navigator.storage.estimate`: missing, resolved with its two figures as rendered, or rejected. */
  datatype StorageInfo = NoStorageApi | Estimate(usedMb: string, quotaMb: string) | EstimateRejected

  /**
   * What the browser reports. `cores` is `hardwareConcurrency` when defined;
   * `memory` is the figure of a non-zero `deviceMemory`, if there is one.
   */
  datatype DeviceInfo = DeviceInfo(cores: Option<nat>, memory: Option<string>, storage: StorageInfo)

  /** `hardwareConcurrency || 'N/A'`: an absent or zero count shows as N/A. */
  function CoresText(cores: Option<nat>): (t: string)
    ensures t == "N/A" <==> cores.None? || cores.value == 0
  {
    if cores.Some? && cores.value != 0 then NatToString(cores.value) else "N/A"
  }

  const MemorySuffix := " GB (browser approx.)"

  /** `deviceMemory ? `${deviceMemory} GB (browser approx.)` : 'N/A'` */
  function MemoryText(memory: Option<string>): (t: string)
    ensures t == "N/A" <==> memory.None?
    ensures memory.Some? ==> |t| == |memory.value| + |MemorySuffix|
    ensures memory.Some? ==> t[..|memory.value|] == memory.value && t[|memory.value|..] == MemorySuffix
  {
    if memory.Some? then memory.value + MemorySuffix else "N/A"
  }

  /** `fetchDeviceInfo()`: it stops after the memory line when the storage estimate rejects. */
  function DeviceLines(d: DeviceInfo): (r: seq<Line>)
    ensures |r| == if d.storage.EstimateRejected? then 3 else 5
    ensures r[..3] == [DeviceHeader, Cores(CoresText(d.cores)), Memory(MemoryText(d.memory))]
    ensures d.storage.Estimate? ==> r[3] == StorageQuota(d.storage.usedMb, d.storage.quotaMb)
    ensures d.storage.NoStorageApi? ==> r[3] == StorageUnsupported
    ensures !d.storage.EstimateRejected? ==> r[4] == SecurityNote
  {
    var head := [DeviceHeader, Cores(CoresText(d.cores)), Memory(MemoryText(d.memory))];
    match d.storage
    case EstimateRejected => head
    case NoStorageApi => head + [StorageUnsupported, SecurityNote]
    case Estimate(used, quota) => head + [StorageQuota(used, quota), SecurityNote]
  }

  const FetchDeviceInfo := SystemCommand("fetch --device-info")
  const ReadyCommand := SystemCommand("ready")

  /** `start()`, given how the connection attempt goes and what the browser reports. */
  function Start(c: ConnectOutcome, d: DeviceInfo): (r: seq<Line>)
    ensures |r| >= 6 && r[0] == Welcome && r[1] == Connection(c) && r[2] == FetchDeviceInfo
    ensures d.storage.EstimateRejected? ==> |r| == 6
    ensures !d.storage.EstimateRejected? ==> |r| == 10 && r[8] == ReadyCommand && r[9] == Ready
    ensures r[3..3 + |DeviceLines(d)|] == DeviceLines(d)
  {
    var lines := [Welcome, Connection(c), FetchDeviceInfo] + DeviceLines(d);
    if d.storage.EstimateRejected? then lines else lines + [ReadyCommand, Ready]
  }

  /** Startup writes exactly one connection line, whatever the connection does. */
  lemma StartConnectsOnce(c: ConnectOutcome, d: DeviceInfo)
    ensures CountWhere(Start(c, d), (l: Line) => l.Connection?) == 1
  {
    var r := Start(c, d);
    assert r[3..] == DeviceLines(d) + (if d.storage.EstimateRejected? then [] else [ReadyCommand, Ready]);
    CountOnly(r, 1, (l: Line) => l.Connection?);
  }

  /** The connection line's text tells which of the three outcomes occurred, and the paper count. */
  lemma ConnectionTextInjective(a: ConnectOutcome, b: ConnectOutcome)
    requires Html(Connection(a)) == Html(Connection(b)) && IsComment(Connection(a)) == IsComment(Connection(b))
    ensures a == b
  {
    if a.Connected? && b.Connected? {
      SameFrame(ConnectedBefore, NatToString(a.count), NatToString(b.count), ConnectedAfter);
      NatToStringInjective(a.count, b.count);
    }
  }

  /** Equal strings with the same text around them have the same middle. */
  lemma SameFrame(pre: string, x: string, y: string, post: string)
    requires pre + x + post == pre + y + post
    ensures x == y
  {
    var s := pre + x + post;
    assert |x| == |y|;
    assert x == s[|pre|..|pre| + |x|];
    assert (pre + y + post)[|pre|..|pre| + |y|] == y;
  }

  /** Exactly one element satisfies `p` when only the one at `k` does. */
  lemma {:induction false} CountOnly<T>(s: seq<T>, k: int, p: T -> bool)
    requires 0 <= k < |s| && p(s[k])
    requires forall i :: 0 <= i < |s| && i != k ==> !p(s[i])
    ensures CountWhere(s, p) == 1
    decreases |s|
  {
    if k == 0 {
      CountNone(s[1..], p);
    } else {
      CountOnly(s[1..], k - 1, p);
    }
  }

  lemma {:induction false} CountNone<T>(s: seq<T>, p: T -> bool)
    requires forall i :: 0 <= i < |s| ==> !p(s[i])
    ensures CountWhere(s, p) == 0
    decreases |s|
  {
    if s != [] {
      CountNone(s[1..], p);
    }
  }
}

=== FILE: text.dfy ===
/**
 * String utilities shared by the server and the browser code:
 * ASCII case folding, the Python and JavaScript whitespace classes,
 * strip/trim, Python's `str.split()`, substring search, decimal rendering
 * of naturals and the binary (code point) lexicographic order.
 */
module Text {

  // ---------------------------------------------------------------- case

  predicate IsUpper(c: char) { 'A' <= c <= 'Z' }

  predicate IsLowerLetter(c: char) { 'a' <= c <= 'z' }

  /** ASCII-only lower-casing of one character (SQLite's LOWER and LIKE fold only ASCII). */
  function LowerChar(c: char): char {
    if IsUpper(c) then (c as int + 32) as char else c
  }

  function Lower(s: string): (r: string)
    ensures |r| == |s|
    ensures forall i :: 0 <= i < |s| ==> r[i] == LowerChar(s[i])
  {
    seq(|s|, i requires 0 <= i < |s| => LowerChar(s[i]))
  }

  lemma LowerIdempotent(s: string)
    ensures Lower(Lower(s)) == Lower(s)
  {
  }

  lemma LowerAppend(a: string, b: string)
    ensures Lower(a + b) == Lower(a) + Lower(b)
  {
  }

  // ---------------------------------------------------------- whitespace

  /** The characters Python's `str.isspace()` accepts, which `str.strip()` and `str.split()` use. */
  predicate IsPySpace(c: char) {
    || '\t' <= c <= '\r'
    || '\U{1c}' <= c <= '\U{1f}'
    || c == ' '
    || c == '\U{85}'
    || c == '\U{a0}'
    || c == '\U{1680}'
    || '\U{2000}' <= c <= '\U{200a}'
    || c == '\U{2028}' || c == '\U{2029}'
    || c == '\U{202f}' || c == '\U{205f}' || c == '\U{3000}'
  }

  /** The characters JavaScript's `String.prototype.trim` removes (WhiteSpace and LineTerminator). */
  predicate IsJsSpace(c: char) {
    || '\t' <= c <= '\r'
    || c == ' '
    || c == '\U{a0}'
    || c == '\U{1680}'
    || '\U{2000}' <= c <= '\U{200a}'
    || c == '\U{2028}' || c == '\U{2029}'
    || c == '\U{202f}' || c == '\U{205f}' || c == '\U{3000}'
    || c == '\U{feff}'
  }

  lemma LowerKeepsSpace()
    ensures forall c :: IsPySpace(LowerChar(c)) == IsPySpace(c)
    ensures forall c :: IsJsSpace(LowerChar(c)) == IsJsSpace(c)
  {
  }

  predicate AllSpace(s: string, sp: char -> bool) {
    forall i :: 0 <= i < |s| ==> sp(s[i])
  }

  predicate NoSpace(s: string, sp: char -> bool) {
    forall i :: 0 <= i < |s| ==> !sp(s[i])
  }

  /** Drops leading whitespace. */
  function TrimStart(s: string, sp: char -> bool): (r: string)
    ensures |r| <= |s|
    ensures r != [] ==> !sp(r[0])
    decreases |s|
  {
    if s != [] && sp(s[0]) then TrimStart(s[1..], sp) else s
  }

  /** What `TrimStart` drops is whitespace, and what it keeps is the rest of the string. */
  lemma {:induction false} TrimStartParts(s: string, sp: char -> bool)
    ensures AllSpace(s[..|s| - |TrimStart(s, sp)|], sp)
    ensures s == s[..|s| - |TrimStart(s, sp)|] + TrimStart(s, sp)
    decreases |s|
  {
    if s != [] && sp(s[0]) {
      TrimStartParts(s[1..], sp);
      var t := TrimStart(s, sp);
      var k := |s| - |t|;
      assert s[1..] == s[1..][..k - 1] + t;
      assert s[..k] == [s[0]] + s[1..][..k - 1];
    } else {
      assert s[..0] + s == s;
    }
  }

  /** Drops trailing whitespace. */
  function TrimEnd(s: string, sp: char -> bool): (r: string)
    ensures |r| <= |s| && r == s[..|r|]
    ensures AllSpace(s[|r|..], sp)
    ensures r != [] ==> !sp(r[|r| - 1])
    decreases |s|
  {
    if s != [] && sp(s[|s| - 1]) then TrimEnd(s[..|s| - 1], sp) else s
  }

  /** Python `str.strip()` / JavaScript `trim()`, depending on the whitespace class. */
  function Strip(s: string, sp: char -> bool): (r: string)
    ensures |r| <= |s|
    ensures r != [] ==> !sp(r[0]) && !sp(r[|r| - 1])
    ensures r == [] <==> AllSpace(s, sp)
  {
    StripEmpty(s, sp);
    TrimEnd(TrimStart(s, sp), sp)
  }

  lemma StripEmpty(s: string, sp: char -> bool)
    ensures var r := TrimEnd(TrimStart(s, sp), sp);
      && (r != [] ==> !sp(r[0]))
      && (r == [] <==> AllSpace(s, sp))
  {
    var t := TrimStart(s, sp);
    var r := TrimEnd(t, sp);
    TrimStartParts(s, sp);
    var pre := s[..|s| - |t|];
    if r == [] {
      assert t[|r|..] == t;
      AllSpaceConcat(pre, t, sp);
    } else {
      assert r[0] == t[0];
      assert s[|pre|] == t[0];
    }
  }

  /** A string without whitespace at either end is its own strip. */
  lemma StripTrimmed(s: string, sp: char -> bool)
    requires s != [] ==> !sp(s[0]) && !sp(s[|s| - 1])
    ensures Strip(s, sp) == s
  {
    assert TrimStart(s, sp) == s;
  }

  /** The stripped string is a slice of the input with only whitespace around it. */
  lemma StripSlice(s: string, sp: char -> bool) returns (pre: string, post: string)
    ensures s == pre + Strip(s, sp) + post
    ensures AllSpace(pre, sp) && AllSpace(post, sp)
  {
    var t := TrimStart(s, sp);
    TrimStartParts(s, sp);
    var r := TrimEnd(t, sp);
    pre := s[..|s| - |t|];
    post := t[|r|..];
    assert t == r + post;
    assert s == pre + t;
  }

  /** Conversely, whitespace around a trimmed string is exactly what `Strip` removes. */
  lemma StripPadded(pre: string, w: string, post: string, sp: char -> bool)
    requires AllSpace(pre, sp) && AllSpace(post, sp)
    requires w != [] && !sp(w[0]) && !sp(w[|w| - 1])
    ensures Strip(pre + w + post, sp) == w
  {
    assert pre + w + post == pre + (w + post);
    TrimStartPadded(pre, w + post, sp);
    TrimEndPadded(w, post, sp);
  }

  lemma {:induction false} TrimStartPadded(pre: string, t: string, sp: char -> bool)
    requires AllSpace(pre, sp) && t != [] && !sp(t[0])
    ensures TrimStart(pre + t, sp) == t
    decreases |pre|
  {
    if pre == [] {
      assert pre + t == t;
    } else {
      assert (pre + t)[1..] == pre[1..] + t;
      TrimStartPadded(pre[1..], t, sp);
    }
  }

  lemma {:induction false} TrimEndPadded(w: string, post: string, sp: char -> bool)
    requires AllSpace(post, sp) && w != [] && !sp(w[|w| - 1])
    ensures TrimEnd(w + post, sp) == w
    decreases |post|
  {
    if post == [] {
      assert w + post == w;
    } else {
      var s := w + post;
      assert s[..|s| - 1] == w + post[..|post| - 1];
      TrimEndPadded(w, post[..|post| - 1], sp);
    }
  }

  lemma AllSpaceConcat(a: string, b: string, sp: char -> bool)
    requires AllSpace(a, sp) && AllSpace(b, sp)
    ensures AllSpace(a + b, sp)
  {
    forall i | 0 <= i < |a + b| ensures sp((a + b)[i]) {
      if i < |a| { assert (a + b)[i] == a[i]; } else { assert (a + b)[i] == b[i - |a|]; }
    }
  }

  // --------------------------------------------------------------- split
  // The lemmas are stated for an arbitrary whitespace class `sp`; Python's
  // argument-less `str.split()` is `Split(s, IsPySpace)`.

  /** The longest whitespace-free prefix of `s`. */
  function Word(s: string, sp: char -> bool): (w: string)
    ensures |w| <= |s| && w == s[..|w|]
    ensures NoSpace(w, sp)
    ensures |w| < |s| ==> sp(s[|w|])
    decreases |s|
  {
    if s == [] || sp(s[0]) then [] else [s[0]] + Word(s[1..], sp)
  }

  /** The maximal runs of non-whitespace characters of `s`, in order. */
  function Split(s: string, sp: char -> bool): (r: seq<string>)
    ensures forall i :: 0 <= i < |r| ==> r[i] != [] && NoSpace(r[i], sp)
    decreases |s|
  {
    var t := TrimStart(s, sp);
    if t == [] then []
    else
      var w := Word(t, sp);
      [w] + Split(t[|w|..], sp)
  }

  /** Words joined by a single space. */
  function JoinWords(ws: seq<string>): string {
    if ws == [] then []
    else if |ws| == 1 then ws[0]
    else ws[0] + (" " + JoinWords(ws[1..]))
  }

  /** A word is read up to the first whitespace, whatever follows it. */
  lemma {:induction false} WordAppend(t: string, c: string, sp: char -> bool)
    requires |Word(t, sp)| < |t| || c == [] || sp(c[0])
    ensures Word(t + c, sp) == Word(t, sp)
    decreases |t|
  {
    if t == [] {
    } else if sp(t[0]) {
      assert (t + c)[0] == t[0];
    } else {
      assert (t + c)[1..] == t[1..] + c;
      WordAppend(t[1..], c, sp);
    }
  }

  lemma WordOfJoin(w: string, rest: string, sp: char -> bool)
    requires NoSpace(w, sp)
    requires rest == [] || sp(rest[0])
    ensures Word(w + rest, sp) == w
  {
    WordAppend(w, rest, sp);
    WordWhole(w, sp);
  }

  lemma {:induction false} WordWhole(w: string, sp: char -> bool)
    requires NoSpace(w, sp)
    ensures Word(w, sp) == w
    decreases |w|
  {
    if w != [] {
      WordWhole(w[1..], sp);
      assert w == [w[0]] + w[1..];
    }
  }

  /** Splitting a string that starts with a word takes that word first. */
  lemma SplitStep(s: string, sp: char -> bool)
    requires s != [] && !sp(s[0])
    ensures Split(s, sp) == [Word(s, sp)] + Split(s[|Word(s, sp)|..], sp)
  {
    assert TrimStart(s, sp) == s;
  }

  /** A word followed by whitespace (or nothing) is split off first. */
  lemma SplitWordThen(w: string, rest: string, sp: char -> bool)
    requires w != [] && NoSpace(w, sp)
    requires rest == [] || sp(rest[0])
    ensures Split(w + rest, sp) == [w] + Split(rest, sp)
  {
    WordOfJoin(w, rest, sp);
    SplitStep(w + rest, sp);
    assert (w + rest)[|w|..] == rest;
  }

  /** Leading whitespace does not change the split. */
  lemma {:induction false} SplitSkipsSpaces(c: string, b: string, sp: char -> bool)
    requires AllSpace(c, sp)
    ensures Split(c + b, sp) == Split(b, sp)
    decreases |c|
  {
    if c != [] {
      assert (c + b)[1..] == c[1..] + b;
      SplitSkipsSpaces(c[1..], b, sp);
    } else {
      assert c + b == b;
    }
  }

  /** Splitting words joined by single spaces gives the words back. */
  lemma {:induction false} SplitJoinWords(ws: seq<string>, sp: char -> bool)
    requires sp(' ')
    requires forall i :: 0 <= i < |ws| ==> ws[i] != [] && NoSpace(ws[i], sp)
    ensures Split(JoinWords(ws), sp) == ws
    decreases |ws|
  {
    if ws == [] {
      assert JoinWords(ws) == [];
    } else if |ws| == 1 {
      SplitSingleWord(ws[0], sp);
      assert ws == [ws[0]];
    } else {
      SplitJoinWords(ws[1..], sp);
      SplitJoinCons(ws[0], ws[1..], sp);
      assert [ws[0]] + ws[1..] == ws;
    }
  }

  lemma SplitSingleWord(w: string, sp: char -> bool)
    requires w != [] && NoSpace(w, sp)
    ensures Split(JoinWords([w]), sp) == [w]
  {
    SplitWordThen(w, [], sp);
    assert w + [] == w;
  }

  lemma SplitJoinCons(w: string, ws: seq<string>, sp: char -> bool)
    requires sp(' ')
    requires w != [] && NoSpace(w, sp) && ws != []
    requires Split(JoinWords(ws), sp) == ws
    ensures Split(JoinWords([w] + ws), sp) == [w] + ws
  {
    var rest := " " + JoinWords(ws);
    assert ([w] + ws)[1..] == ws;
    assert JoinWords([w] + ws) == w + rest;
    SplitWordThen(w, rest, sp);
    assert rest == " " + JoinWords(ws);
    SplitSkipsSpaces(" ", JoinWords(ws), sp);
  }

  /** Splitting yields no words exactly when the string is all whitespace. */
  lemma SplitEmpty(s: string, sp: char -> bool)
    ensures Split(s, sp) == [] <==> AllSpace(s, sp)
  {
    var t := TrimStart(s, sp);
    TrimStartParts(s, sp);
    var pre := s[..|s| - |t|];
    if t == [] {
      assert s == pre;
    } else {
      assert s[|pre|] == t[0];
    }
  }

  /** A run of whitespace separates the words of its two sides. */
  lemma SplitConcat(a: string, m: string, b: string, sp: char -> bool)
    requires m != [] && AllSpace(m, sp)
    ensures Split(a + m + b, sp) == Split(a, sp) + Split(b, sp)
  {
    assert a + m + b == a + (m + b);
    SplitAppend(a, m + b, sp);
    SplitSkipsSpaces(m, b, sp);
  }

  /** Text that starts with whitespace is split separately from what precedes it. */
  lemma {:induction false} SplitAppend(a: string, c: string, sp: char -> bool)
    requires c != [] && sp(c[0])
    ensures Split(a + c, sp) == Split(a, sp) + Split(c, sp)
    decreases |a|
  {
    if a == [] {
      assert a + c == c;
    } else if sp(a[0]) {
      SplitDropSpace(a, sp);
      SplitDropSpace(a + c, sp);
      DropAppend(a, c, 1);
      SplitAppend(a[1..], c, sp);
    } else {
      var w := Word(a, sp);
      SplitStep(a, sp);
      SplitFirstWord(a, c, sp);
      SplitAppend(a[|w|..], c, sp);
      ConcatAssoc([w], Split(a[|w|..], sp), Split(c, sp));
    }
  }

  lemma ConcatAssoc<T>(x: seq<T>, y: seq<T>, z: seq<T>)
    ensures x + (y + z) == x + y + z
  {
  }

  /** A leading whitespace character does not change the split. */
  lemma SplitDropSpace(s: string, sp: char -> bool)
    requires s != [] && sp(s[0])
    ensures Split(s, sp) == Split(s[1..], sp)
  {
    assert TrimStart(s, sp) == TrimStart(s[1..], sp);
  }

  /** The first word of `t` is split off even when more text follows it. */
  lemma SplitFirstWord(t: string, c: string, sp: char -> bool)
    requires t != [] && !sp(t[0])
    requires c != [] && sp(c[0])
    ensures Split(t + c, sp) == [Word(t, sp)] + Split(t[|Word(t, sp)|..] + c, sp)
  {
    var w := Word(t, sp);
    WordAppend(t, c, sp);
    SplitStep(t + c, sp);
    DropAppend(t, c, |w|);
  }

  lemma DropAppend(a: string, b: string, k: nat)
    requires k <= |a|
    ensures (a + b)[k..] == a[k..] + b
  {
  }

  /** Stripping the ends does not change the split. */
  lemma SplitStrip(s: string, sp: char -> bool)
    ensures Split(Strip(s, sp), sp) == Split(s, sp)
  {
    var r := Strip(s, sp);
    var pre, post := StripSlice(s, sp);
    assert s == pre + (r + post);
    SplitSkipsSpaces(pre, r + post, sp);
    if post != [] {
      SplitConcat(r, post, [], sp);
      assert r + post + [] == r + post;
      assert Split([], sp) == [];
    } else {
      assert r + post == r;
    }
  }

  predicate LowerKeepsClass(sp: char -> bool) {
    forall c :: sp(LowerChar(c)) == sp(c)
  }

  function MapLower(ws: seq<string>): (r: seq<string>)
    ensures |r| == |ws| && forall i :: 0 <= i < |ws| ==> r[i] == Lower(ws[i])
  {
    seq(|ws|, i requires 0 <= i < |ws| => Lower(ws[i]))
  }

  lemma MapLowerAppend(a: seq<string>, b: seq<string>)
    ensures MapLower(a + b) == MapLower(a) + MapLower(b)
  {
  }

  lemma {:induction false} TrimStartLower(s: string, sp: char -> bool)
    requires LowerKeepsClass(sp)
    ensures TrimStart(Lower(s), sp) == Lower(TrimStart(s, sp))
    decreases |s|
  {
    if s != [] {
      assert Lower(s)[0] == LowerChar(s[0]);
      assert Lower(s)[1..] == Lower(s[1..]);
      TrimStartLower(s[1..], sp);
    }
  }

  lemma {:induction false} WordLower(s: string, sp: char -> bool)
    requires LowerKeepsClass(sp)
    ensures Word(Lower(s), sp) == Lower(Word(s, sp))
    decreases |s|
  {
    if s != [] {
      assert Lower(s)[0] == LowerChar(s[0]);
      assert Lower(s)[1..] == Lower(s[1..]);
      WordLower(s[1..], sp);
      if !sp(s[0]) {
        LowerAppend([s[0]], Word(s[1..], sp));
      }
    }
  }

  /** Lower-casing before splitting lower-cases each word. */
  lemma {:induction false} SplitLower(s: string, sp: char -> bool)
    requires LowerKeepsClass(sp)
    ensures Split(Lower(s), sp) == MapLower(Split(s, sp))
    decreases |s|
  {
    var t := TrimStart(s, sp);
    TrimStartLower(s, sp);
    if t != [] {
      var w := Word(t, sp);
      WordLower(t, sp);
      assert Lower(t)[|w|..] == Lower(t[|w|..]);
      SplitLower(t[|w|..], sp);
      assert MapLower(Split(s, sp)) == [Lower(w)] + MapLower(Split(t[|w|..], sp));
    }
  }

  // ----------------------------------------------------------- substring

  /** `t` occurs in `s` starting at index `i`. */
  predicate OccursAt(s: string, t: string, i: int) {
    0 <= i && i + |t| <= |s| && s[i..i + |t|] == t
  }

  predicate IsPrefix(p: string, s: string) {
    |p| <= |s| && s[..|p|] == p
  }

  lemma OccursAtTail(s: string, t: string, i: int)
    requires s != [] && 1 <= i
    ensures OccursAt(s, t, i) <==> OccursAt(s[1..], t, i - 1)
  {
    if i + |t| <= |s| {
      assert s[1..][i - 1..i - 1 + |t|] == s[i..i + |t|];
    }
  }

  /** Substring search by scanning start positions left to right. */
  function Contains(s: string, t: string): (b: bool)
    ensures b <==> exists i :: OccursAt(s, t, i)
    decreases |s|
  {
    if IsPrefix(t, s) then
      assert OccursAt(s, t, 0);
      true
    else if s == [] then
      false
    else
      var b := Contains(s[1..], t);
      if b then
        var i :| OccursAt(s[1..], t, i);
        OccursAtTail(s, t, i + 1);
        true
      else
        assert forall i :: OccursAt(s, t, i) ==> OccursAt(s[1..], t, i - 1) by {
          forall i | OccursAt(s, t, i) ensures OccursAt(s[1..], t, i - 1) {
            assert i != 0;
            OccursAtTail(s, t, i);
          }
        }
        false
  }

  // ------------------------------------------------------------- decimal

  predicate IsDigit(c: char) { '0' <= c <= '9' }

  function DigitChar(d: nat): char
    requires d < 10
  {
    ('0' as int + d) as char
  }

  function DigitValue(c: char): (d: nat)
    requires IsDigit(c)
    ensures d < 10 && DigitChar(d) == c
  {
    c as int - '0' as int
  }

  /** The value of a string of decimal digits. */
  function DecimalValue(s: string): nat
    requires forall i :: 0 <= i < |s| ==> IsDigit(s[i])
  {
    if s == [] then 0
    else DecimalValue(s[..|s| - 1]) * 10 + DigitValue(s[|s| - 1])
  }

  /** The decimal rendering JavaScript gives a non-negative integer in a template literal. */
  function NatToString(n: nat): (r: string)
    ensures r != [] && forall i :: 0 <= i < |r| ==> IsDigit(r[i])
    ensures DecimalValue(r) == n
    ensures |r| > 1 ==> r[0] != '0'
  {
    if n < 10 then [DigitChar(n)]
    else
      var r := NatToString(n / 10) + [DigitChar(n % 10)];
      assert r[..|r| - 1] == NatToString(n / 10);
      r
  }

  lemma NatToStringInjective(a: nat, b: nat)
    requires NatToString(a) == NatToString(b)
    ensures a == b
  {
  }

  // ---------------------------------------------------- lexicographic order

  /**
   * `a <= b` in the order of code points with a proper prefix first; on the
   * UTF-8 bytes SQLite compares with its BINARY collation this is the same order.
   */
  predicate StrLe(a: string, b: string)
    decreases |a|
  {
    a == [] || (b != [] && (a[0] < b[0] || (a[0] == b[0] && StrLe(a[1..], b[1..]))))
  }

  predicate StrLt(a: string, b: string) {
    StrLe(a, b) && a != b
  }

  lemma {:induction false} StrLeTotal(a: string, b: string)
    ensures StrLe(a, b) || StrLe(b, a)
    decreases |a|
  {
    if a != [] && b != [] && a[0] == b[0] {
      StrLeTotal(a[1..], b[1..]);
    }
  }

  lemma {:induction false} StrLeAntisymmetric(a: string, b: string)
    requires StrLe(a, b) && StrLe(b, a)
    ensures a == b
    decreases |a|
  {
    if a != [] {
      StrLeAntisymmetric(a[1..], b[1..]);
      assert a == [a[0]] + a[1..];
      assert b == [b[0]] + b[1..];
    }
  }

  lemma {:induction false} StrLeTransitive(a: string, b: string, c: string)
    requires StrLe(a, b) && StrLe(b, c)
    ensures StrLe(a, c)
    decreases |a|
  {
    if a != [] && b != [] && c != [] && a[0] == b[0] && b[0] == c[0] {
      StrLeTransitive(a[1..], b[1..], c[1..]);
    }
  }
}

=== FILE: upload_batch.dfy ===
/**
 * The admin dashboard's batch of files (static/upload.js): files dropped or
 * picked are keyed by name and size, non-PDF files and repeats are refused,
 * each accepted file gets a card of metadata fields, and "Upload All" walks
 * the cards in insertion order, validating each and posting it.
 *
 * The DOM is replaced by values: a card is an `Entry` holding its form
 * values, its status text and whether it carries the error mark; the
 * `Map` of added files is a sequence of entries in insertion order; the
 * outcomes of the `fetch` calls are an input sequence, one per request.
 */
module UploadBatch {
  import opened Text

  /** A browser `File`: name, size in bytes and MIME type. */
  datatype File = File(name: string, size: nat, mimeType: string)

  const PdfType := "application/pdf"

  /** The identifier `${file.name}-${file.size}` used to detect repeats. */
  function FileKey(f: File): string {
    f.name + "-" + NatToString(f.size)
  }

  /** The values of a card's inputs and selects, in the order they appear on the card. */
  datatype Form = Form(
    adminName: string, className: string, subject: string, semester: string, examYear: string,
    examType: string, examNumber: string, paperCode: string, medium: string, university: string,
    time: string, maxMarks: string)

  /** A new card: every input empty, every select on its empty, disabled placeholder. */
  const BlankForm := Form("", "", "", "", "", "", "", "", "", "", "", "")

  /** The texts the status indicator shows. */
  datatype Status = Pending | MissingInfo | Uploading | Uploaded | Failed | NetworkError

  function StatusText(s: Status): string {
    match s
    case Pending => "Pending"
    case MissingInfo => "\U{274C} Missing Info!"
    case Uploading => "Uploading..."
    case Uploaded => "\U{2705} Uploaded"
    case Failed => "\U{274C} Failed"
    case NetworkError => "\U{274C} Network Error"
  }

  /** One value of the `addedFiles` map together with the state of its card. */
  datatype Entry = Entry(key: string, file: File, form: Form, uploaded: bool, status: Status, errorMark: bool)

  /** The `addedFiles` map: its entries in insertion order. */
  type Registry = seq<Entry>

  predicate UniqueKeys(reg: Registry) {
    forall i, j :: 0 <= i < j < |reg| ==> reg[i].key != reg[j].key
  }

  predicate HasKey(reg: Registry, key: string) {
    exists i :: 0 <= i < |reg| && reg[i].key == key
  }

  /** The entry `handleFiles` stores for a file it accepts. */
  function NewEntry(f: File): Entry {
    Entry(FileKey(f), f, BlankForm, false, Pending, false)
  }

  // -------------------------------------------------------------- key

  /** The digits of a size never contain '-', so a key ends in exactly the size's digits after its last '-'. */
  lemma {:induction false} FileKeyInjective(a: File, b: File)
    ensures FileKey(a) == FileKey(b) <==> a.name == b.name && a.size == b.size
  {
    if FileKey(a) == FileKey(b) {
      var da, db := NatToString(a.size), NatToString(b.size);
      var k := FileKey(a);
      if |da| < |db| {
        DashBeforeDigits(a.name, da, b.name, db);
      } else if |db| < |da| {
        DashBeforeDigits(b.name, db, a.name, da);
      }
      assert da == k[|k| - |da|..] == db;
      assert a.name == k[..|a.name|] == b.name;
      NatToStringInjective(a.size, b.size);
    }
  }

  /** A key with a shorter digit suffix has '-' where a longer suffix has a digit. */
  lemma DashBeforeDigits(n1: string, d1: string, n2: string, d2: string)
    requires forall i :: 0 <= i < |d2| ==> IsDigit(d2[i])
    requires |d1| < |d2|
    ensures n1 + "-" + d1 != n2 + "-" + d2
  {
    var k1, k2 := n1 + "-" + d1, n2 + "-" + d2;
    if |k1| == |k2| {
      var p := |k1| - |d1| - 1;
      assert k1[p] == '-';
      assert k2[p] == d2[p - |n2| - 1];
    }
  }

  // ------------------------------------------------------------ ingest

  function NotPdfAlert(f: File): string {
    "'" + f.name + "' is not a PDF and will be ignored."
  }

  function DuplicateAlert(f: File): string {
    "'" + f.name + "' has already been added."
  }

  /** The registry after a drop, and the alerts shown during it, in order. */
  datatype Ingest = Ingest(registry: Registry, alerts: seq<string>)

  /** One iteration of `handleFiles`: the type check first, then the repeat check, then the new card. */
  function HandleFile(reg: Registry, f: File): (r: Ingest)
    ensures UniqueKeys(reg) ==> UniqueKeys(r.registry)
    ensures r.registry == reg || r.registry == reg + [NewEntry(f)]
    ensures r.registry != reg <==> f.mimeType == PdfType && !HasKey(reg, FileKey(f))
    ensures r.registry == reg <==> |r.alerts| == 1
    ensures HasKey(r.registry, FileKey(f)) <==> f.mimeType == PdfType || HasKey(reg, FileKey(f))
  {
    if f.mimeType != PdfType then Ingest(reg, [NotPdfAlert(f)])
    else if HasKey(reg, FileKey(f)) then Ingest(reg, [DuplicateAlert(f)])
    else
      var reg' := reg + [NewEntry(f)];
      assert reg'[|reg|].key == FileKey(f);
      Ingest(reg', [])
  }

  /** `handleFiles`: every file of the drop in order. */
  function HandleFiles(reg: Registry, files: seq<File>): (r: Ingest)
    ensures UniqueKeys(reg) ==> UniqueKeys(r.registry)
    ensures |reg| <= |r.registry| && r.registry[..|reg|] == reg
    ensures |r.registry| - |reg| + |r.alerts| == |files|
    decreases |files|
  {
    if files == [] then Ingest(reg, [])
    else
      var first := HandleFile(reg, files[0]);
      var rest := HandleFiles(first.registry, files[1..]);
      assert rest.registry[..|reg|] == first.registry[..|reg|];
      Ingest(rest.registry, first.alerts + rest.alerts)
  }

  /**
   * A drop of `a + b` is the drop of `a` followed by the drop of `b`: files
   * are handled in the order dropped, so cards are appended in that order.
   */
  lemma HandleFilesConcat(reg: Registry, a: seq<File>, b: seq<File>)
    ensures HandleFiles(reg, a + b).registry == HandleFiles(HandleFiles(reg, a).registry, b).registry
    ensures HandleFiles(reg, a + b).alerts ==
      HandleFiles(reg, a).alerts + HandleFiles(HandleFiles(reg, a).registry, b).alerts
  {
    ConcatRegistry(reg, a, b);
    ConcatAlerts(reg, a, b);
  }

  lemma {:induction false} ConcatRegistry(reg: Registry, a: seq<File>, b: seq<File>)
    ensures HandleFiles(reg, a + b).registry == HandleFiles(HandleFiles(reg, a).registry, b).registry
    decreases |a|
  {
    if a == [] {
      assert a + b == b;
    } else {
      assert (a + b)[0] == a[0] && (a + b)[1..] == a[1..] + b;
      ConcatRegistry(HandleFile(reg, a[0]).registry, a[1..], b);
    }
  }

  lemma {:induction false} ConcatAlerts(reg: Registry, a: seq<File>, b: seq<File>)
    ensures HandleFiles(reg, a + b).alerts ==
      HandleFiles(reg, a).alerts + HandleFiles(HandleFiles(reg, a).registry, b).alerts
    decreases |a|
  {
    if a == [] {
      assert a + b == b;
    } else {
      var step := HandleFile(reg, a[0]);
      assert (a + b)[0] == a[0] && (a + b)[1..] == a[1..] + b;
      ConcatAlerts(step.registry, a[1..], b);
      var rest := HandleFiles(step.registry, a[1..]);
      var second := HandleFiles(rest.registry, b);
      assert step.alerts + (rest.alerts + second.alerts) == step.alerts + rest.alerts + second.alerts;
    }
  }

  /** The last file of a drop is handled after all the others, its card (if any) appended last. */
  lemma HandleFilesLast(reg: Registry, a: seq<File>, f: File)
    ensures HandleFiles(reg, a + [f]).registry == HandleFile(HandleFiles(reg, a).registry, f).registry
    ensures HandleFiles(reg, a + [f]).alerts ==
      HandleFiles(reg, a).alerts + HandleFile(HandleFiles(reg, a).registry, f).alerts
  {
    HandleFilesConcat(reg, a, [f]);
    var last := HandleFile(HandleFiles(reg, a).registry, f);
    assert [f][1..] == [];
    assert HandleFiles(HandleFiles(reg, a).registry, [f]).alerts == last.alerts + [];
  }

  /** A file whose type is not PDF changes nothing and raises one alert. */
  lemma NotPdfIgnored(reg: Registry, f: File)
    requires f.mimeType != PdfType
    ensures HandleFile(reg, f) == Ingest(reg, [NotPdfAlert(f)])
  {
  }

  /** A file whose key is already present changes nothing and raises one alert. */
  lemma DuplicateIgnored(reg: Registry, f: File, g: File)
    requires g.mimeType == PdfType && f.name == g.name && f.size == g.size
    requires HasKey(reg, FileKey(f))
    ensures HandleFile(reg, g) == Ingest(reg, [DuplicateAlert(g)])
  {
  }

  /** Dropping the same PDF twice in one go yields one card and one repeat alert. */
  lemma SameFileTwice(reg: Registry, f: File)
    requires f.mimeType == PdfType && !HasKey(reg, FileKey(f))
    ensures HandleFiles(reg, [f, f]) == Ingest(reg + [NewEntry(f)], [DuplicateAlert(f)])
  {
    var reg' := reg + [NewEntry(f)];
    assert reg'[|reg|].key == FileKey(f);
    assert [f, f][1..] == [f];
    assert HandleFiles(reg', [f][1..]) == Ingest(reg', []);
  }

  /** After a drop, every PDF of it has a card, and every new card belongs to a PDF of it. */
  lemma {:induction false} HandleFilesKeys(reg: Registry, files: seq<File>)
    ensures forall f :: f in files && f.mimeType == PdfType ==> HasKey(HandleFiles(reg, files).registry, FileKey(f))
    ensures var r := HandleFiles(reg, files).registry;
      forall i :: |reg| <= i < |r| ==> exists f :: f in files && f.mimeType == PdfType && r[i] == NewEntry(f)
    ensures forall k :: HasKey(reg, k) ==> HasKey(HandleFiles(reg, files).registry, k)
    decreases |files|
  {
    if files != [] {
      var first := HandleFile(reg, files[0]);
      HandleFilesKeys(first.registry, files[1..]);
      var r := HandleFiles(reg, files).registry;
      assert r == HandleFiles(first.registry, files[1..]).registry;
      forall k | HasKey(reg, k) ensures HasKey(r, k) {
        var i :| 0 <= i < |reg| && reg[i].key == k;
        assert first.registry[i] == reg[i];
        assert HasKey(first.registry, k);
      }
      forall f | f in files && f.mimeType == PdfType ensures HasKey(r, FileKey(f)) {
        if f != files[0] {
          assert f in files[1..];
        }
      }
      forall i | |reg| <= i < |r| ensures exists f :: f in files && f.mimeType == PdfType && r[i] == NewEntry(f) {
        if i < |first.registry| {
          assert first.registry == reg + [NewEntry(files[0])];
          assert r[i] == first.registry[i] == NewEntry(files[0]);
          assert files[0] in files;
        } else {
          var f :| f in files[1..] && f.mimeType == PdfType && r[i] == NewEntry(f);
          assert f in files;
        }
      }
    }
  }

  // -------------------------------------------------------- validation

  /** The values of the card's `[required]` fields, in card order. */
  function RequiredValues(f: Form): seq<string> {
    [f.adminName, f.className, f.subject, f.semester, f.examYear, f.examType, f.medium]
  }

  /** Every required field of the card has a value. */
  predicate Complete(f: Form) {
    && f.adminName != [] && f.className != [] && f.subject != [] && f.semester != []
    && f.examYear != [] && f.examType != [] && f.medium != []
  }

  lemma RequiredValuesComplete(f: Form)
    ensures Complete(f) <==> forall k :: 0 <= k < |RequiredValues(f)| ==> RequiredValues(f)[k] != []
  {
    var r := RequiredValues(f);
    assert r[0] == f.adminName && r[1] == f.className && r[2] == f.subject && r[3] == f.semester;
    assert r[4] == f.examYear && r[5] == f.examType && r[6] == f.medium;
  }

  /** `validateForm`: scans the required fields until the first empty one, then marks or unmarks the card. */
  method ValidateForm(e: Entry) returns (valid: bool, e': Entry)
    ensures valid <==> Complete(e.form)
    ensures valid ==> e' == e.(errorMark := false)
    ensures !valid ==> e' == e.(status := MissingInfo, errorMark := true)
  {
    var required := RequiredValues(e.form);
    valid := true;
    var i := 0;
    while i < |required|
      invariant 0 <= i <= |required|
      invariant valid
      invariant forall k :: 0 <= k < i ==> required[k] != []
    {
      if required[i] == [] {
        valid := false;
        break;
      }
      i := i + 1;
    }
    RequiredValuesComplete(e.form);
    if !valid {
      e' := e.(status := MissingInfo, errorMark := true);
    } else {
      e' := e.(errorMark := false);
    }
  }

  // ------------------------------------------------------------ upload

  /** How a `fetch` ends: a response with `ok`, a response without it, or a thrown error. */
  datatype Outcome = Ok | HttpError | NetworkFailure

  /** The multipart body: the file, then one (name, value) pair per input and select of the card. */
  datatype Payload = Payload(file: File, fields: seq<(string, string)>)

  /** The card's fields as `FormData` receives them, in card order, empty values included. */
  function FormFields(f: Form): seq<(string, string)> {
    [("admin_name", f.adminName), ("class", f.className), ("subject", f.subject),
     ("semester", f.semester), ("exam_year", f.examYear), ("exam_type", f.examType),
     ("exam_number", f.examNumber), ("paper_code", f.paperCode), ("medium", f.medium),
     ("university", f.university), ("time", f.time), ("max_marks", f.maxMarks)]
  }

  function PayloadOf(e: Entry): Payload {
    Payload(e.file, FormFields(e.form))
  }

  /** The card once `uploadFile`'s request has settled. */
  function Settle(e: Entry, o: Outcome): Entry {
    match o
    case Ok => e.(status := Uploaded, uploaded := true)
    case HttpError => e.(status := Failed)
    case NetworkFailure => e.(status := NetworkError)
  }

  /** An entry the pass posts: not yet uploaded and with every required field filled. */
  predicate Eligible(e: Entry) {
    !e.uploaded && Complete(e.form)
  }

  /** How many entries of `es` the pass posts. */
  function CountEligible(es: seq<Entry>): nat {
    if es == [] then 0
    else CountEligible(es[..|es| - 1]) + (if Eligible(es[|es| - 1]) then 1 else 0)
  }

  /** The bodies the pass posts for `es`, in order. */
  function EligiblePayloads(es: seq<Entry>): seq<Payload> {
    if es == [] then []
    else EligiblePayloads(es[..|es| - 1]) + (if Eligible(es[|es| - 1]) then [PayloadOf(es[|es| - 1])] else [])
  }

  /**
   * What the pass does to one card it visits, given the outcomes and how many
   * requests were sent before it: an uploaded card is skipped, an incomplete
   * one is marked, and a complete one is posted and settles with its outcome.
   */
  predicate Visited(before: Entry, after: Entry, outcomes: seq<Outcome>, sent: nat) {
    if before.uploaded then after == before
    else if !Complete(before.form) then after == before.(status := MissingInfo, errorMark := true)
    else sent < |outcomes| && after == Settle(before.(errorMark := false), outcomes[sent])
  }

  /** Extending the visited prefix by one entry extends the counts and bodies by that entry's share. */
  lemma PrefixStep(es: seq<Entry>, i: nat)
    requires i < |es|
    ensures CountEligible(es[..i + 1]) == CountEligible(es[..i]) + (if Eligible(es[i]) then 1 else 0)
    ensures EligiblePayloads(es[..i + 1]) == EligiblePayloads(es[..i]) + (if Eligible(es[i]) then [PayloadOf(es[i])] else [])
  {
    assert es[..i + 1][..i] == es[..i];
  }

  /** Settling entry `i` keeps what was established about the entries before it. */
  lemma VisitedStep(es: seq<Entry>, cur: seq<Entry>, i: nat, settled: Entry, outcomes: seq<Outcome>)
    requires i < |es| == |cur|
    requires forall k :: 0 <= k < i ==> Visited(es[k], cur[k], outcomes, CountEligible(es[..k]))
    requires Visited(es[i], settled, outcomes, CountEligible(es[..i]))
    ensures forall k :: 0 <= k < i + 1 ==> Visited(es[k], cur[i := settled][k], outcomes, CountEligible(es[..k]))
  {
  }

  /** The registry after a pass, the request bodies sent, and where the pass stopped. */
  datatype Pass = Pass(registry: Registry, requests: seq<Payload>, stop: nat)

  /**
   * What one "Upload All" pass over `es` does, given the outcomes of its
   * requests in order. Each request waits for its outcome before the next
   * card is visited. The cards before `stop` are visited. When the outcomes
   * run out, the request in flight never settles: its card (at `stop`) stays
   * "Uploading..." and the cards after it are left alone; otherwise `stop`
   * is the number of entries and at most one outcome per request was used.
   */
  predicate IsPass(es: Registry, outcomes: seq<Outcome>, p: Pass) {
    && |p.registry| == |es| && p.stop <= |es|
    && (forall k :: 0 <= k < p.stop ==> Visited(es[k], p.registry[k], outcomes, CountEligible(es[..k])))
    && (p.stop < |es| ==>
      && Eligible(es[p.stop]) && CountEligible(es[..p.stop]) == |outcomes|
      && p.registry[p.stop] == es[p.stop].(status := Uploading, errorMark := false))
    && (p.stop == |es| ==> CountEligible(es) <= |outcomes|)
    && (forall k :: p.stop < k < |es| ==> p.registry[k] == es[k])
    && p.requests == EligiblePayloads(es[..p.stop]) + (if p.stop < |es| then [PayloadOf(es[p.stop])] else [])
  }

  /** The "Upload All" click handler with `uploadFile` inlined. */
  method UploadAll(es: Registry, outcomes: seq<Outcome>) returns (p: Pass)
    ensures IsPass(es, outcomes, p)
  {
    var cur := es;
    var requests: seq<Payload> := [];
    var sent := 0;
    var i := 0;
    while i < |es|
      invariant 0 <= i <= |es| && |cur| == |es|
      invariant sent == CountEligible(es[..i]) && sent <= |outcomes|
      invariant requests == EligiblePayloads(es[..i])
      invariant forall k :: i <= k < |es| ==> cur[k] == es[k]
      invariant forall k :: 0 <= k < i ==> Visited(es[k], cur[k], outcomes, CountEligible(es[..k]))
    {
      PrefixStep(es, i);
      var e := cur[i];
      var settled := e;
      if !e.uploaded {
        var valid, checked := ValidateForm(e);
        if valid {
          assert Eligible(es[i]);
          requests := requests + [PayloadOf(e)];
          if sent == |outcomes| {
            cur := cur[i := checked.(status := Uploading)];
            p := Pass(cur, requests, i);
            return;
          }
          settled := Settle(checked, outcomes[sent]);
          sent := sent + 1;
        } else {
          assert !Eligible(es[i]);
          settled := checked;
        }
      } else {
        assert !Eligible(es[i]);
      }
      assert Visited(es[i], settled, outcomes, CountEligible(es[..i]));
      VisitedStep(es, cur, i, settled, outcomes);
      cur := cur[i := settled];
      i := i + 1;
    }
    assert es[..|es|] == es;
    p := Pass(cur, requests, |es|);
  }

  // ------------------------------------------------------- pass facts

  lemma {:induction false} EligiblePayloadsCount(s: seq<Entry>)
    ensures |EligiblePayloads(s)| == CountEligible(s)
    decreases |s|
  {
    if s != [] {
      EligiblePayloadsCount(s[..|s| - 1]);
    }
  }

  /** Every body in `EligiblePayloads(s)` is that of an eligible entry of `s`. */
  lemma {:induction false} EligiblePayloadsFrom(s: seq<Entry>)
    ensures forall r :: r in EligiblePayloads(s) ==> exists k :: 0 <= k < |s| && Eligible(s[k]) && r == PayloadOf(s[k])
    decreases |s|
  {
    if s != [] {
      var init := s[..|s| - 1];
      EligiblePayloadsFrom(init);
      forall r | r in EligiblePayloads(s) ensures exists k :: 0 <= k < |s| && Eligible(s[k]) && r == PayloadOf(s[k]) {
        if r in EligiblePayloads(init) {
          var k :| 0 <= k < |init| && Eligible(init[k]) && r == PayloadOf(init[k]);
          assert s[k] == init[k];
        } else {
          assert Eligible(s[|s| - 1]) && r == PayloadOf(s[|s| - 1]);
        }
      }
    }
  }

  /** No entry is eligible exactly when the count is zero. */
  lemma {:induction false} CountEligibleZero(s: seq<Entry>)
    ensures CountEligible(s) == 0 <==> forall k :: 0 <= k < |s| ==> !Eligible(s[k])
    decreases |s|
  {
    if s != [] {
      var init := s[..|s| - 1];
      CountEligibleZero(init);
      assert forall k :: 0 <= k < |init| ==> init[k] == s[k];
    }
  }

  /** A pass changes no key, file or form; it leaves uploaded cards alone and only an `Ok` uploads a card. */
  lemma PassKeepsCards(es: Registry, outcomes: seq<Outcome>, p: Pass)
    requires IsPass(es, outcomes, p)
    ensures forall k :: 0 <= k < |es| ==>
      && p.registry[k].key == es[k].key && p.registry[k].file == es[k].file && p.registry[k].form == es[k].form
      && (es[k].uploaded ==> p.registry[k] == es[k])
      && (p.registry[k].uploaded && !es[k].uploaded ==>
            k < p.stop && Eligible(es[k]) && outcomes[CountEligible(es[..k])] == Ok)
    ensures UniqueKeys(es) ==> UniqueKeys(p.registry)
  {
  }

  /** Every body a pass posts belongs to a card that was not uploaded and was complete. */
  lemma PassPostsOnlyEligible(es: Registry, outcomes: seq<Outcome>, p: Pass)
    requires IsPass(es, outcomes, p)
    ensures forall r :: r in p.requests ==> exists k :: 0 <= k < |es| && Eligible(es[k]) && r == PayloadOf(es[k])
  {
    var pre := es[..p.stop];
    EligiblePayloadsFrom(pre);
    forall r | r in p.requests ensures exists k :: 0 <= k < |es| && Eligible(es[k]) && r == PayloadOf(es[k]) {
      if r in EligiblePayloads(pre) {
        var k :| 0 <= k < |pre| && Eligible(pre[k]) && r == PayloadOf(pre[k]);
        assert es[k] == pre[k];
      } else {
        assert p.stop < |es| && r == PayloadOf(es[p.stop]);
      }
    }
  }

  /**
   * A pass that runs out of outcomes has posted one body more than it has
   * outcomes for; a finished one has posted one body per eligible card.
   */
  lemma PassRequestCount(es: Registry, outcomes: seq<Outcome>, p: Pass)
    requires IsPass(es, outcomes, p)
    ensures p.stop < |es| ==> |p.requests| == |outcomes| + 1
    ensures p.stop == |es| ==> |p.requests| == CountEligible(es) <= |outcomes|
  {
    EligiblePayloadsCount(es[..p.stop]);
    if p.stop == |es| {
      assert es[..p.stop] == es;
    }
  }

  /** When every request of a finished pass succeeds, no card is left to post. */
  lemma PassAllOk(es: Registry, outcomes: seq<Outcome>, p: Pass)
    requires IsPass(es, outcomes, p) && p.stop == |es|
    requires forall k :: 0 <= k < |outcomes| ==> outcomes[k] == Ok
    ensures CountEligible(p.registry) == 0
  {
    CountEligibleZero(p.registry);
  }

  /** A pass over cards none of which is eligible posts nothing and visits every card. */
  lemma PassIdle(es: Registry, outcomes: seq<Outcome>, p: Pass)
    requires IsPass(es, outcomes, p) && CountEligible(es) == 0
    ensures p.requests == [] && p.stop == |es|
  {
    CountEligibleZero(es);
    CountEligibleZero(es[..p.stop]);
    EligiblePayloadsCount(es[..p.stop]);
  }

  /** Clicking "Upload All" again after a pass in which every request succeeded posts nothing. */
  lemma SecondPassAfterAllOk(es: Registry, first: seq<Outcome>, p1: Pass, second: seq<Outcome>, p2: Pass)
    requires IsPass(es, first, p1) && p1.stop == |es|
    requires forall k :: 0 <= k < |first| ==> first[k] == Ok
    requires IsPass(p1.registry, second, p2)
    ensures p2.requests == [] && p2.stop == |es|
  {
    PassAllOk(es, first, p1);
    PassIdle(p1.registry, second, p2);
  }
}

=== FILE: upload_endpoint.dfy ===
/**
 * `POST /upload`: the presence checks on the file part, the defaults for
 * absent form fields, the required-field check, and the row that is stored.
 * Saving the file and running the INSERT are replaced by inputs: the name
 * the file is stored under, the id the database assigns, and whether the
 * INSERT succeeds.
 */
module UploadEndpoint {
  import opened Wrappers
  import opened Papers

  /** An uploaded file part; only its client-side file name matters here. */
  datatype FilePart = FilePart(filename: string)

  /** A multipart request: file parts by field name, and text fields in the order sent. */
  datatype Request = Request(files: map<string, FilePart>, form: seq<(string, string)>)

  datatype Response = Response(status: nat, body: string)

  /** What the handler answers, and the row it inserts when it gets that far and the INSERT succeeds. */
  datatype UploadOutcome = UploadOutcome(response: Response, stored: Option<Paper>)

  predicate HasField(form: seq<(string, string)>, key: string) {
    exists i :: 0 <= i < |form| && form[i].0 == key
  }

  /** `request.form.get(key, default)` */
  function FormGet(form: seq<(string, string)>, key: string, default: string): string {
    if form == [] then default
    else if form[0].0 == key then form[0].1
    else FormGet(form[1..], key, default)
  }

  /** The value read is the one sent first under `key`, or `default` when nothing was sent under it. */
  lemma {:induction false} FormGetFirst(form: seq<(string, string)>, key: string, default: string)
    ensures !HasField(form, key) ==> FormGet(form, key, default) == default
    ensures HasField(form, key) ==>
      exists i :: 0 <= i < |form| && form[i] == (key, FormGet(form, key, default)) &&
        forall j :: 0 <= j < i ==> form[j].0 != key
  {
    if form != [] && form[0].0 != key {
      var tail := form[1..];
      FormGetFirst(tail, key, default);
      var v := FormGet(form, key, default);
      if HasField(tail, key) {
        var i :| 0 <= i < |tail| && tail[i] == (key, v) && forall j :: 0 <= j < i ==> tail[j].0 != key;
        assert form[i + 1] == (key, v);
        forall j | 0 <= j < i + 1 ensures form[j].0 != key {
          if j > 0 { assert form[j] == tail[j - 1]; }
        }
      } else {
        forall i | 0 <= i < |form| ensures form[i].0 != key {
          if i > 0 { assert form[i] == tail[i - 1]; }
        }
      }
    } else if form != [] {
      assert form[0] == (key, FormGet(form, key, default));
    }
  }

  /** Conversely, the value sent first under `key` is the one read. */
  lemma {:induction false} FormGetAt(form: seq<(string, string)>, i: nat, key: string, default: string)
    requires i < |form| && form[i].0 == key
    requires forall j :: 0 <= j < i ==> form[j].0 != key
    ensures FormGet(form, key, default) == form[i].1
    decreases i
  {
    if i > 0 {
      FormGetAt(form[1..], i - 1, key, default);
    }
  }

  /** The `data` dictionary the handler builds from the form. */
  datatype UploadData = UploadData(
    className: string, subject: string, semester: string, examYear: string, examType: string,
    paperCode: string, examNumber: string, medium: string, university: string, time: string,
    maxMarks: string, uploaderName: string)

  const NotApplicable := "N/A"
  const UnknownUploader := "Unknown"

  /** Absent required fields read as '', absent optional ones as 'N/A', an absent admin name as 'Unknown'. */
  function CollectData(form: seq<(string, string)>): UploadData {
    UploadData(
      FormGet(form, "class", ""), FormGet(form, "subject", ""), FormGet(form, "semester", ""),
      FormGet(form, "exam_year", ""), FormGet(form, "exam_type", ""),
      FormGet(form, "paper_code", NotApplicable), FormGet(form, "exam_number", NotApplicable),
      FormGet(form, "medium", ""), FormGet(form, "university", NotApplicable),
      FormGet(form, "time", NotApplicable), FormGet(form, "max_marks", NotApplicable),
      FormGet(form, "admin_name", UnknownUploader))
  }

  /** The seven values `required_fields` names, in its order. */
  function RequiredValues(d: UploadData): seq<string> {
    [d.className, d.subject, d.semester, d.examYear, d.examType, d.medium, d.uploaderName]
  }

  predicate AllRequiredPresent(d: UploadData) {
    forall i :: 0 <= i < |RequiredValues(d)| ==> RequiredValues(d)[i] != []
  }

  /** The row the INSERT stores: every column from `data`, none of them NULL. */
  function StoredRow(d: UploadData, id: nat, storedName: string): Paper {
    Paper(id, d.className, d.subject, d.semester, d.examYear, d.examType, Some(d.paperCode),
      Some(d.examNumber), d.medium, Some(d.university), Some(d.time), Some(d.maxMarks),
      d.uploaderName, storedName)
  }

  const MissingFilePart := Response(400, "Missing file part")
  const InvalidFile := Response(400, "Invalid file")
  const RequiredFieldEmpty := Response(400, "A required field is empty")
  const DatabaseError := Response(500, "Database error")
  const Success := Response(200, "Success")

  /** The handler, given where the file is stored, the id the row receives and whether the INSERT succeeds. */
  function UploadFile(req: Request, storedName: string, id: nat, insertOk: bool): (r: UploadOutcome)
    ensures r.stored.Some? <==> r.response == Success
    ensures r.response == Success <==>
      && "file" in req.files && req.files["file"].filename != []
      && AllRequiredPresent(CollectData(req.form)) && insertOk
    ensures r.response.status == 400 <==>
      || "file" !in req.files || req.files["file"].filename == []
      || !AllRequiredPresent(CollectData(req.form))
    ensures r.response == MissingFilePart <==> "file" !in req.files
    ensures r.response == RequiredFieldEmpty <==>
      && "file" in req.files && req.files["file"].filename != []
      && !AllRequiredPresent(CollectData(req.form))
    ensures r.response == DatabaseError <==>
      && "file" in req.files && req.files["file"].filename != []
      && AllRequiredPresent(CollectData(req.form)) && !insertOk
    ensures r.stored.Some? ==> r.stored.value.id == id && r.stored.value.filename == storedName
  {
    if "file" !in req.files then UploadOutcome(MissingFilePart, None)
    else if req.files["file"].filename == [] then UploadOutcome(InvalidFile, None)
    else
      var data := CollectData(req.form);
      if !AllRequiredPresent(data) then UploadOutcome(RequiredFieldEmpty, None)
      else if !insertOk then UploadOutcome(DatabaseError, None)
      else UploadOutcome(Success, Some(StoredRow(data, id, storedName)))
  }

  /** The file part is checked before anything in the form, and its presence before its name. */
  lemma FileChecksFirst(req: Request, storedName: string, id: nat, insertOk: bool)
    ensures "file" !in req.files ==> UploadFile(req, storedName, id, insertOk).response == MissingFilePart
    ensures "file" in req.files && req.files["file"].filename == [] ==>
      UploadFile(req, storedName, id, insertOk).response == InvalidFile
  {
  }

  /** `v` is the value sent first under `key`. */
  predicate FirstSent(form: seq<(string, string)>, key: string, v: string) {
    exists i :: 0 <= i < |form| && form[i] == (key, v) && forall j :: 0 <= j < i ==> form[j].0 != key
  }

  /** `v` is what `form.get(key, default)` reads: the value sent first under `key`, or `default`. */
  predicate ReadsAs(form: seq<(string, string)>, key: string, default: string, v: string) {
    && (HasField(form, key) ==> FirstSent(form, key, v))
    && (!HasField(form, key) ==> v == default)
  }

  /** The five required fields of `data` that default to ''. */
  lemma RequiredFieldsRead(form: seq<(string, string)>)
    ensures var d := CollectData(form);
      && ReadsAs(form, "class", "", d.className) && ReadsAs(form, "subject", "", d.subject)
      && ReadsAs(form, "semester", "", d.semester) && ReadsAs(form, "exam_year", "", d.examYear)
      && ReadsAs(form, "exam_type", "", d.examType)
  {
    FormGetFirst(form, "class", "");
    FormGetFirst(form, "subject", "");
    FormGetFirst(form, "semester", "");
    FormGetFirst(form, "exam_year", "");
    FormGetFirst(form, "exam_type", "");
  }

  /** The other seven fields of `data`: 'N/A' defaults, `medium`'s '' and the uploader's 'Unknown'. */
  lemma OtherFieldsRead(form: seq<(string, string)>)
    ensures var d := CollectData(form);
      && ReadsAs(form, "paper_code", NotApplicable, d.paperCode)
      && ReadsAs(form, "exam_number", NotApplicable, d.examNumber)
      && ReadsAs(form, "medium", "", d.medium)
      && ReadsAs(form, "university", NotApplicable, d.university)
      && ReadsAs(form, "time", NotApplicable, d.time)
      && ReadsAs(form, "max_marks", NotApplicable, d.maxMarks)
      && ReadsAs(form, "admin_name", UnknownUploader, d.uploaderName)
  {
    FormGetFirst(form, "paper_code", NotApplicable);
    FormGetFirst(form, "exam_number", NotApplicable);
    FormGetFirst(form, "medium", "");
    FormGetFirst(form, "university", NotApplicable);
    FormGetFirst(form, "time", NotApplicable);
    FormGetFirst(form, "max_marks", NotApplicable);
    FormGetFirst(form, "admin_name", UnknownUploader);
  }

  /**
   * Every column of a stored row holds the value sent first for its field,
   * or that field's default when it was not sent; the six required fields
   * other than the uploader's name were all sent.
   */
  lemma StoredColumnsFromForm(req: Request, storedName: string, id: nat, insertOk: bool)
    requires UploadFile(req, storedName, id, insertOk).stored.Some?
    ensures var p := UploadFile(req, storedName, id, insertOk).stored.value;
      && p.id == id && p.filename == storedName
      && ReadsAs(req.form, "class", "", p.className) && ReadsAs(req.form, "subject", "", p.subject)
      && ReadsAs(req.form, "semester", "", p.semester) && ReadsAs(req.form, "exam_year", "", p.examYear)
      && ReadsAs(req.form, "exam_type", "", p.examType)
      && p.paperCode.Some? && ReadsAs(req.form, "paper_code", NotApplicable, p.paperCode.value)
      && p.examNumber.Some? && ReadsAs(req.form, "exam_number", NotApplicable, p.examNumber.value)
      && ReadsAs(req.form, "medium", "", p.medium)
      && p.university.Some? && ReadsAs(req.form, "university", NotApplicable, p.university.value)
      && p.time.Some? && ReadsAs(req.form, "time", NotApplicable, p.time.value)
      && p.maxMarks.Some? && ReadsAs(req.form, "max_marks", NotApplicable, p.maxMarks.value)
      && ReadsAs(req.form, "admin_name", UnknownUploader, p.uploaderName)
    ensures
      && HasField(req.form, "class") && HasField(req.form, "subject") && HasField(req.form, "semester")
      && HasField(req.form, "exam_year") && HasField(req.form, "exam_type") && HasField(req.form, "medium")
  {
    var d := CollectData(req.form);
    assert RequiredValues(d)[0] != [] && RequiredValues(d)[1] != [] && RequiredValues(d)[2] != [];
    assert RequiredValues(d)[3] != [] && RequiredValues(d)[4] != [] && RequiredValues(d)[5] != [];
    RequiredFieldsRead(req.form);
    OtherFieldsRead(req.form);
  }

  /** The six required fields other than the uploader's name were sent non-empty. */
  predicate OtherRequiredSent(form: seq<(string, string)>) {
    && FormGet(form, "class", "") != [] && FormGet(form, "subject", "") != []
    && FormGet(form, "semester", "") != [] && FormGet(form, "exam_year", "") != []
    && FormGet(form, "exam_type", "") != [] && FormGet(form, "medium", "") != []
  }

  /** Leaving `admin_name` out is accepted: it reads as 'Unknown'. */
  lemma AdminNameOmittedAccepted(form: seq<(string, string)>, file: FilePart, storedName: string, id: nat)
    requires file.filename != [] && OtherRequiredSent(form)
    requires !HasField(form, "admin_name")
    ensures var r := UploadFile(Request(map["file" := file], form), storedName, id, true);
      r.response == Success && r.stored.value.uploaderName == UnknownUploader
  {
    FormGetFirst(form, "admin_name", UnknownUploader);
  }

  /** Sending `admin_name` empty is refused, whatever else the form holds. */
  lemma AdminNameEmptyRefused(form: seq<(string, string)>, file: FilePart, storedName: string, id: nat, insertOk: bool)
    requires file.filename != []
    ensures UploadFile(Request(map["file" := file], [("admin_name", "")] + form), storedName, id, insertOk).response
      == RequiredFieldEmpty
  {
    var form' := [("admin_name", "")] + form;
    assert FormGet(form', "admin_name", UnknownUploader) == "";
    assert RequiredValues(CollectData(form'))[6] == "";
  }
}

=== FILE: uri.dfy ===
/**
 * `encodeURIComponent`, which the search page applies to the query before
 * putting it in the request URL, and the decoding the server applies to a
 * query-string value. JavaScript strings are UTF-16; a Dafny `char` is a
 * Unicode scalar value, so the model covers well-formed strings only.
 */
module UriCodec {
  import opened Wrappers
  import Text

  type Byte = b: int | 0 <= b < 256

  /** The characters `encodeURIComponent` leaves as they are. */
  predicate IsUnreserved(c: char) {
    || ('A' <= c <= 'Z') || ('a' <= c <= 'z') || ('0' <= c <= '9')
    || c == '-' || c == '_' || c == '.' || c == '!' || c == '~' || c == '*' || c == '\'' || c == '(' || c == ')'
  }

  predicate IsContinuation(b: Byte) {
    0x80 <= b < 0xC0
  }

  /** The UTF-8 encoding of one scalar value, as in section 3 of RFC 3629. */
  function Utf8Char(c: char): (r: seq<Byte>)
    ensures 1 <= |r| <= 4
    ensures (|r| == 1) <==> (c as int) < 0x80
    ensures forall k :: 1 <= k < |r| ==> IsContinuation(r[k])
  {
    var cp := c as int;
    if cp < 0x80 then [cp]
    else if cp < 0x800 then [0xC0 + cp / 64, 0x80 + cp % 64]
    else if cp < 0x10000 then [0xE0 + cp / 4096, 0x80 + cp / 64 % 64, 0x80 + cp % 64]
    else [0xF0 + cp / 262144, 0x80 + cp / 4096 % 64, 0x80 + cp / 64 % 64, 0x80 + cp % 64]
  }

  const HexDigits := "0123456789ABCDEF"

  predicate IsHex(c: char) {
    ('0' <= c <= '9') || ('A' <= c <= 'F') || ('a' <= c <= 'f')
  }

  function HexValue(c: char): (n: int)
    requires IsHex(c)
    ensures 0 <= n < 16
  {
    if '0' <= c <= '9' then c as int - '0' as int
    else if 'A' <= c <= 'F' then c as int - 'A' as int + 10
    else c as int - 'a' as int + 10
  }

  /** The digit `encodeURIComponent` writes is read back as its value. */
  lemma HexDigitValue(n: int)
    requires 0 <= n < 16
    ensures IsHex(HexDigits[n]) && HexValue(HexDigits[n]) == n
  {
  }

  /** `%XY`, with upper-case hexadecimal digits. */
  function PercentByte(b: Byte): string {
    ['%', HexDigits[b / 16], HexDigits[b % 16]]
  }

  function PercentBytes(bs: seq<Byte>): (r: string)
    ensures |r| == 3 * |bs|
  {
    if bs == [] then [] else PercentByte(bs[0]) + PercentBytes(bs[1..])
  }

  function EncodeChar(c: char): string {
    if IsUnreserved(c) then [c] else PercentBytes(Utf8Char(c))
  }

  /** Characters that may appear in the encoding: nothing that ends or splits a query-string value. */
  predicate IsEncodedChar(c: char) {
    IsUnreserved(c) || c == '%'
  }

  /** `encodeURIComponent(s)` */
  function EncodeUriComponent(s: string): (r: string)
    ensures |r| >= |s|
    ensures forall k :: 0 <= k < |r| ==> IsEncodedChar(r[k])
    ensures (forall k :: 0 <= k < |s| ==> IsUnreserved(s[k])) ==> r == s
  {
    if s == [] then []
    else
      var head := EncodeChar(s[0]);
      EncodeCharShape(s[0]);
      head + EncodeUriComponent(s[1..])
  }

  lemma EncodeCharShape(c: char)
    ensures |EncodeChar(c)| >= 1
    ensures forall k :: 0 <= k < |EncodeChar(c)| ==> IsEncodedChar(EncodeChar(c)[k])
    ensures IsUnreserved(c) ==> EncodeChar(c) == [c]
  {
    if !IsUnreserved(c) {
      PercentBytesShape(Utf8Char(c));
    }
  }

  lemma {:induction false} PercentBytesShape(bs: seq<Byte>)
    ensures forall k :: 0 <= k < |PercentBytes(bs)| ==> IsEncodedChar(PercentBytes(bs)[k])
    decreases |bs|
  {
    if bs != [] {
      PercentBytesShape(bs[1..]);
      var r := PercentBytes(bs);
      assert r == PercentByte(bs[0]) + PercentBytes(bs[1..]);
      forall k | 0 <= k < |r| ensures IsEncodedChar(r[k]) {
        if k >= 3 {
          assert r[k] == PercentBytes(bs[1..])[k - 3];
        }
      }
    }
  }

  // ------------------------------------------------------------ decoding

  /**
   * Percent-decoding of a query-string value: `%XY` with two hexadecimal
   * digits (either case) is the byte XY, `+` is a space, any other
   * character stands for its own UTF-8 bytes.
   */
  function PercentDecode(s: string): seq<Byte>
    decreases |s|
  {
    if s == [] then []
    else if s[0] == '%' && |s| >= 3 && IsHex(s[1]) && IsHex(s[2]) then
      [HexValue(s[1]) * 16 + HexValue(s[2])] + PercentDecode(s[3..])
    else if s[0] == '+' then [0x20] + PercentDecode(s[1..])
    else Utf8Char(s[0]) + PercentDecode(s[1..])
  }

  function Prepend(c: char, rest: Option<string>): Option<string> {
    match rest
    case None => None
    case Some(t) => Some([c] + t)
  }

  /** Strict UTF-8 decoding: `None` for an overlong form, a surrogate, a value past U+10FFFF or a cut sequence. */
  function Utf8Decode(bs: seq<Byte>): Option<string>
    decreases |bs|
  {
    if bs == [] then Some([])
    else if bs[0] < 0x80 then Prepend(bs[0] as char, Utf8Decode(bs[1..]))
    else if 0xC2 <= bs[0] < 0xE0 && |bs| >= 2 && IsContinuation(bs[1]) then
      var cp := (bs[0] as int - 0xC0) * 64 + (bs[1] as int - 0x80);
      Prepend(cp as char, Utf8Decode(bs[2..]))
    else if 0xE0 <= bs[0] < 0xF0 && |bs| >= 3 && IsContinuation(bs[1]) && IsContinuation(bs[2]) then
      var cp := (bs[0] as int - 0xE0) * 4096 + (bs[1] as int - 0x80) * 64 + (bs[2] as int - 0x80);
      if cp < 0x800 || 0xD800 <= cp < 0xE000 then None
      else Prepend(cp as char, Utf8Decode(bs[3..]))
    else if 0xF0 <= bs[0] < 0xF5 && |bs| >= 4 && IsContinuation(bs[1]) && IsContinuation(bs[2]) && IsContinuation(bs[3]) then
      var cp := (bs[0] as int - 0xF0) * 262144 + (bs[1] as int - 0x80) * 4096 + (bs[2] as int - 0x80) * 64 + (bs[3] as int - 0x80);
      if cp < 0x10000 || cp > 0x10FFFF then None
      else Prepend(cp as char, Utf8Decode(bs[4..]))
    else None
  }

  /** What the server reads as the value of a query-string parameter. */
  function DecodeComponent(s: string): Option<string> {
    Utf8Decode(PercentDecode(s))
  }

  // ---------------------------------------------------------- round trip

  lemma PercentDecodeByte(b: Byte, rest: string)
    ensures PercentDecode(PercentByte(b) + rest) == [b] + PercentDecode(rest)
  {
    var s := PercentByte(b) + rest;
    HexDigitValue(b / 16);
    HexDigitValue(b % 16);
    assert s[0] == '%' && s[1] == HexDigits[b / 16] && s[2] == HexDigits[b % 16];
    assert s[3..] == rest;
  }

  lemma {:induction false} PercentDecodeBytes(bs: seq<Byte>, rest: string)
    ensures PercentDecode(PercentBytes(bs) + rest) == bs + PercentDecode(rest)
    decreases |bs|
  {
    if bs != [] {
      var tail := PercentBytes(bs[1..]) + rest;
      Text.ConcatAssoc(PercentByte(bs[0]), PercentBytes(bs[1..]), rest);
      PercentDecodeByte(bs[0], tail);
      PercentDecodeBytes(bs[1..], rest);
      Text.ConcatAssoc([bs[0]], bs[1..], PercentDecode(rest));
      assert [bs[0]] + bs[1..] == bs;
    } else {
      assert PercentBytes(bs) + rest == rest;
    }
  }

  /** Each encoded character decodes to the UTF-8 bytes of the character. */
  lemma PercentDecodeChar(c: char, rest: string)
    ensures PercentDecode(EncodeChar(c) + rest) == Utf8Char(c) + PercentDecode(rest)
  {
    if IsUnreserved(c) {
      assert ([c] + rest)[1..] == rest;
    } else {
      PercentDecodeBytes(Utf8Char(c), rest);
    }
  }

  /** Decoding one character's UTF-8 bytes gives the character back. */
  lemma Utf8DecodeChar(c: char, rest: seq<Byte>)
    ensures Utf8Decode(Utf8Char(c) + rest) == Prepend(c, Utf8Decode(rest))
  {
    var cp := c as int;
    var u := Utf8Char(c);
    var bs := u + rest;
    assert bs[..|u|] == u && bs[|u|..] == rest;
    if cp < 0x80 {
    } else if cp < 0x800 {
      Utf8TwoBytes(cp);
    } else if cp < 0x10000 {
      Utf8ThreeBytes(cp);
    } else {
      Utf8FourBytes(cp);
    }
  }

  lemma Utf8TwoBytes(cp: int)
    requires 0x80 <= cp < 0x800
    ensures 0xC2 <= 0xC0 + cp / 64 < 0xE0
    ensures ((0xC0 + cp / 64) - 0xC0) * 64 + ((0x80 + cp % 64) - 0x80) == cp
  {
  }

  lemma Utf8ThreeBytes(cp: int)
    requires 0x800 <= cp < 0x10000
    ensures 0xE0 <= 0xE0 + cp / 4096 < 0xF0
    ensures (cp / 4096) * 4096 + (cp / 64 % 64) * 64 + cp % 64 == cp
  {
  }

  lemma Utf8FourBytes(cp: int)
    requires 0x10000 <= cp <= 0x10FFFF
    ensures 0xF0 <= 0xF0 + cp / 262144 < 0xF5
    ensures (cp / 262144) * 262144 + (cp / 4096 % 64) * 4096 + (cp / 64 % 64) * 64 + cp % 64 == cp
  {
  }

  /** The server reads back exactly the query the page encoded. */
  lemma {:induction false} DecodeEncode(s: string)
    ensures DecodeComponent(EncodeUriComponent(s)) == Some(s)
    decreases |s|
  {
    if s != [] {
      var rest := EncodeUriComponent(s[1..]);
      assert EncodeUriComponent(s) == EncodeChar(s[0]) + rest;
      PercentDecodeChar(s[0], rest);
      Utf8DecodeChar(s[0], PercentDecode(rest));
      DecodeEncode(s[1..]);
      assert [s[0]] + s[1..] == s;
    }
  }

  /** Different queries give different request URLs. */
  lemma EncodeInjective(s: string, t: string)
    requires EncodeUriComponent(s) == EncodeUriComponent(t)
    ensures s == t
  {
    DecodeEncode(s);
    DecodeEncode(t);
  }
}

=== FILE: wrappers.dfy ===
/** The optional value shared by the other modules. */
module Wrappers {

  /** A value that may be absent: a JavaScript `undefined`, a Python `None`, an SQL NULL. */
  datatype Option<+T> = None | Some(value: T) {
    function GetOr(default: T): T {
      match this
      case Some(v) => v
      case None => default
    }
  }
}
